=== FILE: README.md ===
# Whispering Cat transcription core, modelled in Dafny

Whispering Cat is a plugin that turns an audio reference into text. The
reference can be a `data:` URI, a URL or a local path. The transcription runs
either on a locally held Whisper model or through the remote transcription
endpoint. This project models the plugin's core:

- **the resolver** (`src/transcribe.py`). It sorts a reference into data URI,
  URL or local path, and turns it into a named file with a MIME type:
  - a data URI goes through the anchored pattern `data:audio/<alnum>+;base64,`,
    a five-entry subtype allow-list and base64 decoding;
  - a URL goes through a GET that must answer 200;
  - a local path goes through the extension table.
- **the dispatcher** (`src/transcribe.py`). After resolution it runs one of two
  modes:
  - local mode joins the model's segment texts;
  - remote mode needs an API key, refuses payloads over 25,000,000 octets and
    reads the endpoint's reply.
- **the local model cache** (`src/local_whisper.py`). It holds at most one
  loaded model and the id it was requested under. It reuses the model on a hit.
  On a miss it downloads only what the cache directory lacks, then builds the
  new model.
- **the older resolver and `transcript`** (`src/transcript.py`). These are still
  used by the host glue.
- **the settings** (`src/settings.py`): the three value sets, the defaults and
  the two cross-field validators.

The modules follow the program:

- `Common`: shared values (errors, resolved files, HTTP replies, the world as
  maps of files and URLs, the settings dictionary).
- `Strings`: `split` and `"".join`.
- `Base64`: the RFC 4648 section 4 alphabet with padding.
- `UrlParse`: scheme and network location.
- `PathNames`: `basename`, `split('.')[-1]` and `splitext`.
- `DataUri`: the data-URI branch, identical in both resolvers.
- `AudioStreams`: the in-memory or temporary file as a class.
- `ModelCache`: `LocalWhisper`, as a transition function `Acquire` and the class
  `LocalWhisper`, whose `GetInstance` is proved to make that transition.
- `Transcribe`, `Transcript` and `PluginSettings`: the three source files of the
  same names.

The code is followed as written, apart from what "## Left out" lists. The one
other exception is the older resolver's naming of operating-system files, which raises in Python; it is modelled both
ways and recorded under "## Findings". Behaviours of the code worth knowing:

- A cache hit compares the model id only, so device and compute type are
  ignored (`HitIgnoresDeviceAndComputeType`).
- The stream is closed only after a successful transcription; the older code
  never closes it (`DispatchStream`).
- `_handle_local_file` writes `audio/` in front of table values that already
  start with `audio/`, so `.wav` gives `audio/audio/x-wav` (`WavMimeDoubled`).
- `ModelSize.OTHER` has the value `"Other"`, but the model cache tests for
  `"other"`. Size `Other` therefore asks for a model named `Other`, and the
  custom path that the validator insists on is never read
  (`ModelIdIsSizeValue`).

## Model

| member | source | states |
|---|---|---|
| Transcribe.Classify | src/transcribe.py:82-94 | a `data:` prefix picks the data-URI branch; otherwise the reference is a URL exactly when it has both a scheme and a network location, and a local path otherwise |
| Transcribe.DataPrefixBeforeUrl | src/transcribe.py:84-85 | a reference that starts with `data:` is a data URI even when it also has the shape of a URL |
| Transcribe.UrlOfPartsIsFetched | src/transcribe.py:87-92 | every `scheme://host/path` that does not start with `data:` is fetched |
| Transcribe.NoColonIsPath | src/transcribe.py:87-94 | a reference without a colon is a local path |
| UrlParse.Scheme | src/transcribe.py:87-88 | the scheme is non-empty exactly when the text before the first colon is a letter followed by letters, digits, `+`, `-` or `.` |
| UrlParse.UrlShape | src/transcribe.py:87-88 | in a reference with a scheme and a network location, the first colon is followed by `//` and then the network location |
| UrlParse.UrlOfParts | src/transcribe.py:87-88 | conversely, `scheme://host` followed by text that starts with `/`, `?` or `#` parses back to that scheme and host |
| DataUri.MatchSubtype | src/transcribe.py:98-100 | a subtype found by the anchored pattern is a non-empty run of ASCII letters and digits between `data:audio/` and `;base64,` at the start of the URI |
| DataUri.MatchSubtypeComplete | src/transcribe.py:98-100 | every URI of that shape matches, and yields exactly that subtype |
| DataUri.Handle | src/transcribe.py:97-124 | an accepted data URI yields a listed bare subtype as the MIME type and the name `audio.` + the mapped extension |
| DataUri.HandleMatched | src/transcribe.py:103-124 | a matching URI is refused for an unlisted subtype; otherwise it yields the base64 decoding of the text between the first and second comma, the mapped name and the bare subtype, or an invalid-base64 error |
| DataUri.HandleUnmatched | src/transcribe.py:98-100 | a URI without the promised shape is an invalid data URI |
| DataUri.PayloadBetweenCommas | src/transcribe.py:117 | `split(',')[1]` of a matching URI is the text after `;base64,` up to the next comma |
| DataUri.HandleRoundTrip | src/transcribe.py:97-124 | encoding audio into a data URI of a listed subtype and resolving it gives the same audio, name and subtype back |
| DataUri.FlacUnsupported | src/transcribe.py:111-114 | the subtype `flac` matches the pattern but is refused as unsupported |
| DataUri.DashedSubtypeInvalid | src/transcribe.py:98-100 | `x-wav` does not match the pattern |
| DataUri.MissingMarkerInvalid | src/transcribe.py:98-100 | without `;base64,` the URI does not match |
| Base64.Encode | src/transcribe.py:118 | the encoding is a whole number of four-character groups over the base64 alphabet with padding, empty exactly for empty audio |
| Base64.Decode | src/transcribe.py:118 | only text whose length is a multiple of four decodes |
| Base64.DecodeEncode | src/transcribe.py:118 | decoding the encoding of any octet sequence gives it back |
| Transcribe.FetchUrl | src/transcribe.py:127-137 | an unreachable URL and a status other than 200 fail; on 200 the file carries the body and the Content-Type as sent, and its name is a `/`-free suffix of the URL |
| Transcribe.FetchedNameIsLastSegment | src/transcribe.py:134 | the fetched file is named after the text after the URL's last `/` |
| PathNames.AfterLastOf | src/transcribe.py:145 | `basename` and `split('.')[-1]` give exactly the text after the last separator |
| Strings.SplitLastIsSuffix | src/transcribe.py:155 | the last piece of `split` is a separator-free suffix of the string: all of it, or what follows a separator |
| PathNames.LastPieceIsAfterLast | src/transcribe.py:155 | the last piece of a split on a separator is the text after the last separator |
| PathNames.LastDotField | src/transcribe.py:155 | `split('.')[-1]` of a file name holds no dot and is what follows its last dot |
| Transcribe.HandleLocalFile | src/transcribe.py:140-162 | a missing file fails; an existing file is refused with its extension exactly when that extension (the text after the last dot, or the whole dot-less name) is unlisted, and is otherwise accepted with its contents, its base name and `audio/` + the table value |
| Transcribe.LocalFileByExtension | src/transcribe.py:140-162 | `stem.ext`, given bare or as `dir/stem.ext`, is accepted exactly when `ext` is listed, and then carries its contents, the name `stem.ext` and `audio/` + the table value; otherwise it is refused with `ext` |
| PathNames.BasenameOfName | src/transcribe.py:145 | a `/`-free name, bare or below a directory, is its own `basename` |
| PathNames.PathIsDirAndName | src/transcript.py:109 | every path is its `basename` alone or a directory, a `/` and its `basename`, so the bare and directory cases cover all paths |
| Transcribe.WavMimeDoubled | src/transcribe.py:147-160 | a `.wav` file gets `audio/audio/x-wav` |
| Transcribe.UpperCaseExtensionRefused | src/transcribe.py:155-158 | the extension test is case-sensitive: `.WAV` is refused |
| Transcribe.Resolve | src/transcribe.py:82-94 | only a fetched URL can come without a MIME type |
| Transcribe.ReadResponse | src/transcribe.py:61-67 | the call succeeds exactly on status 200 with a `text` field, returning it verbatim; another status reports `error.message` |
| Transcribe.RemoteTranscribe | src/transcribe.py:39-67 | an empty key and a payload over 25,000,000 octets are refused with no request; otherwise exactly one POST carries the key, the file triple, `whisper-1` and the language |
| Transcribe.SizeLimitBoundary | src/transcribe.py:48-49 | 25,000,000 octets are sent, 25,000,001 are refused |
| Transcribe.Dispatch | src/transcribe.py:18-36 | at most one request is made; remote mode leaves the cache untouched and local mode sends nothing |
| Transcribe.Process | src/transcribe.py:12-36 | a resolution error ends the call first, with no request and the cache unchanged |
| Transcribe.MissingKeyNoRequest | src/transcribe.py:24-25 | remote mode with an empty key fails with no request |
| Transcribe.LocalJoinsSegments | src/transcribe.py:70-79 | local mode returns the segment texts laid end to end: each one unchanged at its offset, with nothing added |
| Strings.ConcatLaysOut | src/transcribe.py:78 | `"".join` places every piece, in order, at its offset, and its length is the sum of the pieces |
| Transcribe.RemoteReturnsText | src/transcribe.py:61-67 | a remote dispatch returns the reply's text on 200 and its error message otherwise |
| Transcribe.ClipWavHelloWorld | src/transcribe.py:12-67 | a 1000-octet `clip.wav` sent online to an endpoint answering `hello world` gives `hello world` |
| Transcribe.FlacDataUriUnsupported | src/transcribe.py:12-14 | a `flac` data URI fails as unsupported whatever the mode |
| Transcribe.LocalFooBar | src/transcribe.py:70-79 | offline `tiny`/`cpu`/`int8` on a fresh cache, with segments `foo ` and `bar`, gives `foo bar` and loads one model |
| Transcribe.ProcessAudioFile | src/transcribe.py:12-36 | the method's result and cache are those of `Process`; a stream exists exactly when resolution succeeded, and it is closed exactly when the transcription succeeded |
| Transcribe.DispatchStream | src/transcribe.py:18-34 | the transcription of the open stream matches `Dispatch`, the stream is closed only on success, and its contents and name are left as they were |
| AudioStreams.Overwrite | src/transcript.py:97 | writing keeps what lies before the position, places the written octets there, pads a gap with zeros and keeps what lies beyond |
| AudioStreams.WriteSeekReadBack | src/transcript.py:95-99 | writing audio into an empty file, rewinding and reading gives the audio back |
| AudioStreams.AudioStream.Write | src/transcript.py:97 | the new contents are the old ones overwritten at the position, which moves past the written octets |
| AudioStreams.AudioStream.Read | src/transcribe.py:28 | the read returns the rest of the contents, and the position moves to the end |
| ModelCache.GetModelId | src/local_whisper.py:70-75 | the custom path or id when the size is `other`, the size otherwise |
| ModelCache.Acquire | src/local_whisper.py:20-54 | a hit returns the held instance and changes nothing; a download happens exactly on a miss for a model not on disk; a successful miss holds a new instance built with the requested device and compute type under the requested id; a failure keeps the held instance |
| ModelCache.AcquireKeepsValid | src/local_whisper.py:27-54 | every transition keeps the invariant: the held instance is the last one built, its model is on disk, and an instance is held exactly when one was built |
| ModelCache.HitIgnoresDeviceAndComputeType | src/local_whisper.py:22-28 | on a hit, any device and compute type get the held instance back |
| ModelCache.MissDownloadsOnlyWhenAbsent | src/local_whisper.py:31-36 | a miss downloads exactly when the model is not on disk |
| ModelCache.MissLoadsRequested | src/local_whisper.py:39-54 | after a successful miss the stored id is the requested one, the held instance is the new one, and the model is on disk |
| ModelCache.SecondAcquireReuses | src/local_whisper.py:27-28 | asking again for the model just obtained returns the same instance with no download and no load |
| ModelCache.StaleAfterFailedLoad | src/local_whisper.py:39-47 | when the build fails, the stored id is the new one while the previous instance stays held, and the next request for that id gets the previous instance |
| ModelCache.OneModelLoadsOnce | src/local_whisper.py:27-54 | any run of requests for one model id builds at most one model |
| ModelCache.HitsChangeNothing | src/local_whisper.py:27-28 | once a model is held under its id, any number of requests for it leave the cache unchanged |
| ModelCache.LocalWhisper.ModelIsDownloaded | src/local_whisper.py:57-67 | the probe succeeds exactly for ids in the cache directory |
| ModelCache.LocalWhisper.GetInstance | src/local_whisper.py:20-54 | the step-by-step method makes the transition `Acquire` describes and keeps the invariant |
| Transcript.HandleLocalFile | src/transcript.py:107-111 | intended behaviour: every existing file is accepted, with its contents, its base name and a MIME type starting with `audio/`; a missing file fails |
| Transcript.LocalMimeIsExtension | src/transcript.py:107-111 | `stem.ext`, bare or as `dir/stem.ext`, resolves to its contents, the name `stem.ext` and `audio/ext`, listed extension or not |
| Transcript.LocalMimeWithoutDot | src/transcript.py:107-111 | a name with no dot, bare or below a directory, resolves to its contents, its name and `audio/` |
| Transcript.LocalMimeOfDotFile | src/transcript.py:107-111 | a dot file such as `.wav`, bare or below a directory, resolves to its contents, its name and `audio/` |
| PathNames.SplitExtOfStem | src/transcript.py:110 | `splitext` of `stem.ext` gives `ext` unless only dots lead the name |
| Transcript.Resolve | src/transcript.py:44-56 | only a fetched URL can come without a MIME type, and the falsy-result error is never produced |
| Transcript.AgreesExceptLocal | src/transcript.py:44-104 | intended behaviour: data URIs and URLs resolve exactly as in the newer resolver |
| Transcript.DataUrisAgreeAsWritten | src/transcript.py:44-86 | as written, a data URI resolves exactly as in the newer resolver, and a fetched URL ends in the read-only-name error where the newer resolver returns the file |
| Transcript.LocalMimeDiffers | src/transcript.py:107-111 | a listed extension, bare or below a directory, gives the same name and contents as the newer resolver, but `audio/ext` instead of `audio/` + the table value |
| Transcript.TranscriptCall | src/transcript.py:26-41 | over 25,000,000 octets is refused with no request; otherwise one POST is made whatever the key, and the reply's text is returned whatever the status |
| Transcript.AgreesOnSuccess | src/transcript.py:26-41 | with a key and a 200 reply, the call equals the newer `_transcribe` |
| Transcript.StatusIgnored | src/transcript.py:39-41 | a failing status with a text field still yields the text, where the newer call fails |
| Transcript.EmptyKeyStillPosts | src/transcript.py:26-38 | an empty key is sent as is |
| Transcript.SizeLimitBoundary | src/transcript.py:27-28 | 25,000,000 octets are sent, 25,000,001 are refused |
| Transcript.Process | src/transcript.py:11-23 | a resolution error ends the call with no request; otherwise the result is the call on the resolved file with the settings' key and language |
| Transcript.NeverUnsupportedOrInvalidPath | src/transcript.py:13-15 | the "unsupported file type or invalid file path" error is never raised |
| Transcript.HandleUrl | src/transcript.py:89-104 | intended behaviour: the method fails exactly as `FetchUrl` does; otherwise it returns a fresh file holding the body at position 0, named after the URL, with the Content-Type |
| Transcript.OpenTemporary | src/transcript.py:95-100 | intended behaviour: writing, rewinding and naming leave the temporary file holding the contents at position 0 |
| Transcript.OpenInMemory | src/transcript.py:83-84 | the in-memory file holds the contents at position 0 under the resolved name |
| Transcript.GetFileHandle | src/transcript.py:44-56 | the method agrees with `Resolve` on success and error, and returns a fresh open file holding the resolved contents |
| Transcript.ProcessAudioFile | src/transcript.py:11-23 | the method's result is that of `Process` |
| Transcript.ResolveAsWritten | src/transcript.py:95-109 | as written, only a data URI resolves; a fetched URL or an existing local file ends in the read-only-name error, and every other error is that of `Resolve` |
| Transcript.ProcessAsWritten | src/transcript.py:11-23 | as written, a resolution error ends the call with no request, and a successful resolution runs as in `Process` |
| Transcript.OnlyDataUrisTranscribedAsWritten | src/transcript.py:95-109 | as written, a URL or a local path never reaches the endpoint and always ends in an error |
| Transcript.ClipMp3AsWritten | src/transcript.py:107-111 | `clip.mp3` resolves to `audio/mp3` in the intended behaviour but raises on naming as written |
| AudioStreams.AudioStream.constructor | src/transcribe.py:144 | a new `BytesIO` holds the given contents at position 0, open and not yet named |
| AudioStreams.AudioStream.SetName | src/transcribe.py:145 | assigning `name` sets it to the given text and changes nothing else |
| AudioStreams.AudioStream.Seek | src/transcript.py:99 | `seek` moves the position and changes nothing else |
| AudioStreams.AudioStream.Close | src/transcribe.py:32-34 | after `close` the stream is closed; contents, position and name are kept |
| ModelCache.LocalWhisper.constructor | src/local_whisper.py:15-16 | the cache starts with no model held and no id stored, over the given cache directory |
| PluginSettings.ParseModelSize | src/settings.py:21-34 | lookup by value finds the member with that value, and fails exactly when no member has it |
| PluginSettings.ParseDevice | src/settings.py:37-40 | lookup by value finds the member with that value, and fails exactly when no member has it |
| PluginSettings.ParseComputeType | src/settings.py:43-51 | lookup by value finds the member with that value, and fails exactly when no member has it |
| PluginSettings.ModelSizeRoundTrip | src/settings.py:21-34 | every model size is found again from its value |
| PluginSettings.DeviceRoundTrip | src/settings.py:37-40 | every device is found again from its value |
| PluginSettings.ComputeTypeRoundTrip | src/settings.py:43-51 | every compute type is found again from its value |
| PluginSettings.ModelSizeValueSet | src/settings.py:21-34 | there are 13 model sizes with 13 distinct values |
| PluginSettings.DeviceValueSet | src/settings.py:37-40 | there are 3 devices with distinct values |
| PluginSettings.ComputeTypeValueSet | src/settings.py:43-51 | there are 8 compute types with distinct values |
| PluginSettings.ValidateModelPathOrId | src/settings.py:104-108 | refuses exactly size `Other` with an empty custom path, and otherwise returns the settings unchanged |
| PluginSettings.ValidateApiKey | src/settings.py:110-114 | refuses exactly online mode with an empty key, and otherwise returns the settings unchanged |
| PluginSettings.Validate | src/settings.py:104-114 | accepts exactly when both validators do, unchanged; the custom-path refusal is reported first |
| PluginSettings.DefaultsValid | src/settings.py:54-102 | the defaults pass both validators |
| PluginSettings.ValidatorsAccept | src/settings.py:104-114 | offline mode accepts an empty key, and a non-empty custom path satisfies size `Other` |
| PluginSettings.ToConfig | src/settings.py:54-102 | each enum field of the settings dictionary parses back to the member that was chosen; language, key, flag and custom path pass through unchanged |
| PluginSettings.NoSizeIsOtherSentinel | src/settings.py:34 | no model size has the value `other` |
| PluginSettings.ModelIdIsSizeValue | src/local_whisper.py:70-75 | the model cache always asks for the size value: size `Other` asks for a model named `Other` and the custom path is never used |

## Left out

- HTTP traffic. `requests.get` and `requests.post` are not modelled. A GET is a
  lookup in a map of URLs, where a missing URL stands for a transport error. The
  endpoint is a function from request to reply. A transport error on the POST is
  not modelled.
- JSON decoding. A reply is a status, an optional `text` field and an error
  object. When the error object has no message, the failure message is `None`.
  A missing field, which Python raises as `KeyError` or `AttributeError`, is one
  malformed-response error.
- Real `urlparse`. The model computes only the scheme (letters, digits, `+-.`
  before the first colon, starting with a letter) and the network location
  after `//`. Python's special cases for particular schemes and ports are not
  modelled. Neither is its input cleaning: current Python strips leading C0
  control characters and spaces and deletes tabs, carriage returns and line
  feeds before parsing. So `" http://h/a.wav"` is fetched by Python but is a
  local path here. Nor are its network-location checks, which raise `ValueError`:
  an unbalanced `[` or `]` ("Invalid IPv6 URL", e.g. `http://[h/a.wav`), a
  bracketed host that is not an IP address (e.g. `http://[h]/a.wav`), and a
  network location whose NFKC normalisation introduces `/`, `?`, `#`, `@` or
  `:`. Python raises on these before any GET, while the model classifies them
  as URLs and fetches them.
- Base64.Decode is strict RFC 4648 section 4 (padding required, no foreign
  characters). Python's non-strict `b64decode` differs in three ways. It
  discards characters outside the alphabet. It stops at the first complete
  padded group, so `"AA==AAAA"` decodes to one octet. It accepts surplus `=`.
  On such input the model reports invalid base64 where Python may decode.
- File I/O. A local file is a lookup in a map of paths. `open()`, permission
  errors and the text-mode decoding of the older `_handle_local_file` are not
  modelled. Its file is treated as the octets it holds.
- Assignment of `name` on file objects. `AudioStream.SetName` succeeds on
  every stream. Python's `TemporaryFile` and `open()` objects have a read-only
  `name`, so the assignment raises there. This is captured only at the value
  level, by `Transcript.ResolveAsWritten` (see "## Findings").
- Transcript.HandleUrl, Transcript.OpenTemporary, Transcript.GetFileHandle,
  Transcript.ProcessAudioFile and the URL half of `AgreesExceptLocal` model the
  intended behaviour. As written, naming
  the temporary file raises, so the URL branch never returns a handle.
- Transcript.HandleLocalFile and the lemmas built on it (`LocalMimeIsExtension`,
  `LocalMimeWithoutDot`, `LocalMimeOfDotFile`, `LocalMimeDiffers`,
  `Transcript.Resolve`, `Transcript.Process`) model the intended behaviour. As
  written, naming the opened file raises, so an existing local file never
  resolves.
- `faster_whisper`. Model download and construction are represented by their
  success flags. Inference is a function from model, audio and language to
  segment texts. Inference errors, and probe errors other than "not present",
  are not modelled.
- Logging through `cat.log`.
- Concurrency. The code holds no lock and the model has none. Behaviour under
  concurrent calls is not modelled.
- The singleton. `LocalWhisper`'s class-level fields are modelled as the fields
  of one cache object.
- Pydantic machinery and `pycountry`. The `LanguageCode` enum is not modelled;
  the language is an opaque string.
- A missing `api_key` entry in the settings dictionary is modelled as the empty
  key.
- Host glue: `src/main.py`, `main.py`, `audio_parser.py`, `src/audio_parser.py`,
  and the `activated` and `after_cat_bootstrap` hooks in `src/settings.py`.

## Findings

| source | as written | input that shows it | evidently intended | confidence | as-written member | corrected member |
|---|---|---|---|---|---|---|
| src/transcript.py:95-109 | `_handle_url` assigns `name` on a `TemporaryFile('wb+')` and `_handle_local_file` assigns it on the result of `open(file_path)`; on CPython both have a read-only `name`, so the assignment raises and neither branch returns a file | an existing local file `clip.mp3`, or any URL that answers 200 | the file is returned under its base name, as in the data-URI branch and in `src/transcribe.py` | not executed; read from the code and CPython's `io` classes | Transcript.ClipMp3AsWritten | Transcript.LocalMimeIsExtension |

=== FILE: AudioStream.dfy ===
/** The in-memory binary file the resolvers hand to the dispatchers: a
    `BytesIO` (or the temporary file / opened handle the older resolver uses)
    with its contents, its read/write position, the `name` attribute the
    resolver assigns after construction, and whether it has been closed. */
module AudioStreams {
  import opened Common

  /** `n` zero octets: what a write past the end pads the gap with. */
  function Zeros(n: nat): (z: seq<byte>)
    ensures |z| == n && forall k :: 0 <= k < n ==> z[k] == 0
  {
    seq(n, k => 0)
  }

  /** The contents after writing `b` at position `p` of `d`: the octets before
      `p` are kept (a gap past the end reads as zeros), `b` replaces what was
      at [p, p + |b|), and whatever lay beyond is kept. */
  function Overwrite(d: seq<byte>, p: nat, b: seq<byte>): (r: seq<byte>)
    ensures |r| == if p + |b| > |d| then p + |b| else |d|
    ensures r[p..p + |b|] == b
    ensures forall k :: 0 <= k < p && k < |d| ==> r[k] == d[k]
    ensures forall k :: |d| <= k < p ==> r[k] == 0
    ensures forall k :: p + |b| <= k < |d| ==> r[k] == d[k]
  {
    var padded := if p <= |d| then d else d + Zeros(p - |d|);
    var after := if p + |b| < |padded| then padded[p + |b|..] else [];
    assert forall k :: |d| <= k < p ==> padded[k] == 0;
    padded[..p] + b + after
  }

  /** What `read()` returns at position `p`: the rest of the contents. */
  function Remaining(d: seq<byte>, p: nat): (r: seq<byte>)
    ensures p <= |d| ==> d == d[..p] + r
    ensures p >= |d| ==> r == []
  {
    if p < |d| then d[p..] else []
  }

  /** Writing the whole audio into an empty file, seeking back to the start
      and reading gives that audio back. */
  lemma WriteSeekReadBack(b: seq<byte>)
    ensures Remaining(Overwrite([], 0, b), 0) == b
  {
    var r := Overwrite([], 0, b);
    assert r == r[0..|b|];
  }

  class AudioStream {
    var data: seq<byte>
    var pos: nat
    var name: string
    var closed: bool

    /** `BytesIO(content)`: positioned at the start, open, not yet named. */
    constructor (content: seq<byte>)
      ensures data == content && pos == 0 && name == "" && !closed
    {
      data := content;
      pos := 0;
      name := "";
      closed := false;
    }

    /** `file.name = n`. */
    method SetName(n: string)
      modifies this`name
      ensures name == n
    {
      name := n;
    }

    /** `file.write(b)`: overwrites from the position on and moves past `b`. */
    method Write(b: seq<byte>)
      requires !closed
      modifies this`data, this`pos
      ensures data == Overwrite(old(data), old(pos), b)
      ensures pos == old(pos) + |b|
    {
      data := Overwrite(data, pos, b);
      pos := pos + |b|;
    }

    /** `file.seek(p)`. */
    method Seek(p: nat)
      requires !closed
      modifies this`pos
      ensures pos == p
    {
      pos := p;
    }

    /** `file.read()`: everything from the position to the end; the position
        moves to the end unless it was already past it. */
    method Read() returns (b: seq<byte>)
      requires !closed
      modifies this`pos
      ensures b == Remaining(data, old(pos))
      ensures pos == if old(pos) < |data| then |data| else old(pos)
    {
      b := Remaining(data, pos);
      if pos < |data| {
        pos := |data|;
      }
    }

    /** `file.close()`. */
    method Close()
      modifies this`closed
      ensures closed
    {
      closed := true;
    }
  }
}

=== FILE: Base64.dfy ===
/** Base64 as defined in section 4 of RFC 4648: the 64-character alphabet,
    groups of three octets written as four characters, and `=` padding in the
    last group. The decoder is strict: it accepts only padded, alphabet-only
    text whose length is a multiple of four. */
module Base64 {
  import opened Common

  predicate IsBase64Char(c: char)
  {
    ('A' <= c <= 'Z') || ('a' <= c <= 'z') || ('0' <= c <= '9') || c == '+' || c == '/'
  }

  /** Value of an alphabet character (table 1 of RFC 4648). */
  function IndexOf(c: char): (v: int)
    requires IsBase64Char(c)
    ensures 0 <= v < 64
  {
    if 'A' <= c <= 'Z' then c as int - 'A' as int
    else if 'a' <= c <= 'z' then c as int - 'a' as int + 26
    else if '0' <= c <= '9' then c as int - '0' as int + 52
    else if c == '+' then 62
    else 63
  }

  /** Alphabet character of a 6-bit value. */
  function CharOf(v: int): (c: char)
    requires 0 <= v < 64
    ensures IsBase64Char(c) && IndexOf(c) == v
  {
    if v < 26 then ('A' as int + v) as char
    else if v < 52 then ('a' as int + v - 26) as char
    else if v < 62 then ('0' as int + v - 52) as char
    else if v == 62 then '+'
    else '/'
  }

  /** Text made only of alphabet characters and `=`. */
  predicate IsEncodedText(s: string)
  {
    forall k :: 0 <= k < |s| ==> IsBase64Char(s[k]) || s[k] == '='
  }

  /** Three octets as four characters. */
  function EncodeTriple(b0: byte, b1: byte, b2: byte): (q: string)
    ensures |q| == 4 && IsEncodedText(q)
  {
    [CharOf(b0 / 4), CharOf((b0 % 4) * 16 + b1 / 16), CharOf((b1 % 16) * 4 + b2 / 64), CharOf(b2 % 64)]
  }

  /** Two final octets: three characters and one `=`. */
  function EncodePair(b0: byte, b1: byte): (q: string)
    ensures |q| == 4 && IsEncodedText(q)
  {
    [CharOf(b0 / 4), CharOf((b0 % 4) * 16 + b1 / 16), CharOf((b1 % 16) * 4), '=']
  }

  /** One final octet: two characters and `==`. */
  function EncodeSingle(b0: byte): (q: string)
    ensures |q| == 4 && IsEncodedText(q)
  {
    [CharOf(b0 / 4), CharOf((b0 % 4) * 16), '=', '=']
  }

  /** Concatenated encoded texts are encoded text. */
  lemma EncodedConcat(a: string, b: string)
    requires IsEncodedText(a) && IsEncodedText(b)
    ensures IsEncodedText(a + b)
  {
    forall k | 0 <= k < |a + b| ensures IsBase64Char((a + b)[k]) || (a + b)[k] == '=' {
      if k >= |a| {
        assert (a + b)[k] == b[k - |a|];
      }
    }
  }

  /** Encoding with padding: every character is in the alphabet or is `=`,
      and four characters stand for each started group of three octets. */
  function Encode(b: seq<byte>): (s: string)
    ensures |s| % 4 == 0 && (|s| == 0 <==> |b| == 0)
    ensures IsEncodedText(s)
    decreases |b|
  {
    if |b| == 0 then ""
    else if |b| == 1 then EncodeSingle(b[0])
    else if |b| == 2 then EncodePair(b[0], b[1])
    else
      var g, e := EncodeTriple(b[0], b[1], b[2]), Encode(b[3..]);
      EncodedConcat(g, e);
      g + e
  }

  /** A group of four alphabet characters (no padding allowed). */
  function DecodeQuad(q: string): (r: Option<seq<byte>>)
    requires |q| == 4
    ensures r.Some? ==> |r.value| == 3
  {
    if IsBase64Char(q[0]) && IsBase64Char(q[1]) && IsBase64Char(q[2]) && IsBase64Char(q[3]) then
      var v0, v1, v2, v3 := IndexOf(q[0]), IndexOf(q[1]), IndexOf(q[2]), IndexOf(q[3]);
      Some([v0 * 4 + v1 / 16, (v1 % 16) * 16 + v2 / 4, (v2 % 4) * 64 + v3])
    else None
  }

  /** The last group: four alphabet characters, or `xxx=`, or `xx==`. */
  function DecodeLast(q: string): (r: Option<seq<byte>>)
    requires |q| == 4
    ensures r.Some? ==> 1 <= |r.value| <= 3
  {
    if DecodeQuad(q).Some? then DecodeQuad(q)
    else if IsBase64Char(q[0]) && IsBase64Char(q[1]) && IsBase64Char(q[2]) && q[3] == '=' then
      var v0, v1, v2 := IndexOf(q[0]), IndexOf(q[1]), IndexOf(q[2]);
      Some([v0 * 4 + v1 / 16, (v1 % 16) * 16 + v2 / 4])
    else if IsBase64Char(q[0]) && IsBase64Char(q[1]) && q[2] == '=' && q[3] == '=' then
      var v0, v1 := IndexOf(q[0]), IndexOf(q[1]);
      Some([v0 * 4 + v1 / 16])
    else None
  }

  /** Strict decoding: None unless the text is a whole number of groups of
      alphabet characters with padding only at the very end. */
  function Decode(s: string): (r: Option<seq<byte>>)
    ensures r.Some? ==> |s| % 4 == 0
    decreases |s|
  {
    if |s| == 0 then Some([])
    else if |s| < 4 then None
    else if |s| == 4 then DecodeLast(s)
    else
      match DecodeQuad(s[..4])
      case None => None
      case Some(head) =>
        match Decode(s[4..])
        case None => None
        case Some(tail) => Some(head + tail)
  }

  /** Decoding undoes encoding, for every octet sequence. */
  lemma {:induction false} DecodeEncode(b: seq<byte>)
    ensures Decode(Encode(b)) == Some(b)
    decreases |b|
  {
    if |b| == 1 {
      OneOctetRoundTrip(b);
    } else if |b| == 2 {
      TwoOctetsRoundTrip(b);
    } else if |b| >= 3 {
      var head, rest := b[..3], b[3..];
      assert head == [b[0], b[1], b[2]];
      assert b == head + rest;
      var g := EncodeTriple(b[0], b[1], b[2]);
      assert Encode(b) == g + Encode(rest);
      TripleRoundTrip(b[0], b[1], b[2]);
      DecodeEncode(rest);
      DecodeGroupThen(g, Encode(rest), head, rest);
    }
  }

  /** A full group in front of decodable text decodes to its three octets first. */
  lemma DecodeGroupThen(g: string, e: string, head: seq<byte>, tail: seq<byte>)
    requires |g| == 4 && DecodeQuad(g) == Some(head) && DecodeLast(g) == Some(head)
    requires Decode(e) == Some(tail)
    ensures Decode(g + e) == Some(head + tail)
  {
    if |e| == 0 {
      assert g + e == g;
      assert head + tail == head;
    } else {
      assert (g + e)[..4] == g && (g + e)[4..] == e;
    }
  }

  lemma OneOctetRoundTrip(b: seq<byte>)
    requires |b| == 1
    ensures Decode(Encode(b)) == Some(b)
  {
    SingleRoundTrip(b[0]);
    assert [b[0]] == b;
  }

  lemma TwoOctetsRoundTrip(b: seq<byte>)
    requires |b| == 2
    ensures Decode(Encode(b)) == Some(b)
  {
    PairRoundTrip(b[0], b[1]);
    assert [b[0], b[1]] == b;
  }

  lemma SingleRoundTrip(b0: byte)
    ensures Decode(EncodeSingle(b0)) == Some([b0])
  {
    var q := EncodeSingle(b0);
    DecodeTwoPads(q);
    HighOctet(b0, 0);
  }

  lemma PairRoundTrip(b0: byte, b1: byte)
    ensures Decode(EncodePair(b0, b1)) == Some([b0, b1])
  {
    var q := EncodePair(b0, b1);
    DecodeOnePad(q);
    HighOctet(b0, b1 / 16);
    MiddleOctet(b0, b1, 0);
  }

  /** The first octet comes back from the first two sextets. */
  lemma HighOctet(b0: byte, lo: int)
    requires 0 <= lo < 16
    ensures (b0 / 4) * 4 + ((b0 % 4) * 16 + lo) / 16 == b0
  {
    SixBitSplit(b0 % 4, lo);
  }

  /** The second octet comes back from the second and third sextets. */
  lemma MiddleOctet(b0: byte, b1: byte, lo: int)
    requires 0 <= lo < 4
    ensures (((b0 % 4) * 16 + b1 / 16) % 16) * 16 + ((b1 % 16) * 4 + lo) / 4 == b1
  {
    SixBitSplit(b0 % 4, b1 / 16);
    FourBitSplit(b1 % 16, lo);
  }

  /** A last group `xxx=` stands for two octets. */
  lemma DecodeOnePad(q: string)
    requires |q| == 4 && IsBase64Char(q[0]) && IsBase64Char(q[1]) && IsBase64Char(q[2]) && q[3] == '='
    ensures Decode(q) == Some([IndexOf(q[0]) * 4 + IndexOf(q[1]) / 16, (IndexOf(q[1]) % 16) * 16 + IndexOf(q[2]) / 4])
  {
    assert !IsBase64Char(q[3]);
  }

  /** A last group `xx==` stands for one octet. */
  lemma DecodeTwoPads(q: string)
    requires |q| == 4 && IsBase64Char(q[0]) && IsBase64Char(q[1]) && q[2] == '=' && q[3] == '='
    ensures Decode(q) == Some([IndexOf(q[0]) * 4 + IndexOf(q[1]) / 16])
  {
    assert !IsBase64Char(q[2]);
  }

  lemma TripleRoundTrip(b0: byte, b1: byte, b2: byte)
    ensures DecodeQuad(EncodeTriple(b0, b1, b2)) == Some([b0, b1, b2])
  {
    HighOctet(b0, b1 / 16);
    MiddleOctet(b0, b1, b2 / 64);
    FourBitSplit(b1 % 16, b2 / 64);
  }

  /** A 6-bit value made of two high bits and four low bits splits back. */
  lemma SixBitSplit(hi: int, lo: int)
    requires 0 <= hi < 4 && 0 <= lo < 16
    ensures (hi * 16 + lo) / 16 == hi && (hi * 16 + lo) % 16 == lo
  {
  }

  /** A 6-bit value made of four high bits and two low bits splits back. */
  lemma FourBitSplit(hi: int, lo: int)
    requires 0 <= hi < 16 && 0 <= lo < 4
    ensures (hi * 4 + lo) / 4 == hi && (hi * 4 + lo) % 4 == lo
  {
  }

  /** Encoded text never holds a comma, so it can sit in a comma-separated field. */
  lemma EncodeHasNoComma(b: seq<byte>)
    ensures ',' !in Encode(b)
  {
    var s := Encode(b);
    assert IsEncodedText(s);
  }
}

=== FILE: Common.dfy ===
/** Values shared by the resolvers, the dispatchers and the model cache of the
    Whispering Cat transcription plugin: bytes, the error taxonomy, the resolved
    audio triple, the outside world (files and web) and the remote API exchange. */
module Common {

  /** One octet of audio data. */
  type byte = b: int | 0 <= b < 256

  datatype Option<+T> = None | Some(value: T)

  /** Every exception the core can raise, one constructor per distinct message. */
  datatype Error =
    | InvalidDataUri                        // "Invalid data URI"
    | UnsupportedMimeType(subtype: string)  // "Unsupported MIME type: <subtype>"
    | InvalidBase64                         // the base64 decoder rejects the payload
    | NetworkError(url: string)             // the HTTP GET itself raises
    | FetchFailed(url: string)              // "Failed to fetch the file from <url>"
    | FileNotFound(path: string)            // open() raises
    | UnsupportedFileType(ext: string)      // "Unsupported file type: <ext>"
    | UnsupportedOrInvalidPath              // "Unsupported file type or invalid file path."
    | MissingApiKey                         // "API key is required for OpenAI's transcription API"
    | FileTooLarge                          // "File size exceeds the maximum limit of 25MB"
    | TranscriptionFailed(message: string)  // "Failed to transcribe the audio: <message>"
    | MalformedResponse                     // a field of the response JSON is missing
    | ModelDownloadFailed(model: string)    // download_model raises
    | ModelLoadFailed(model: string)        // WhisperModel(...) raises
    | CustomModelPathRequired               // settings validator, model path
    | ApiKeyRequired                        // settings validator, API key
    | NameNotWritable                       // assigning `name` on a file object whose `name` is read-only

  datatype Result<+T> = Ok(value: T) | Err(error: Error)

  /** What a resolver hands to the dispatcher: the file name hint, the whole
      payload and the MIME type (absent when a web server sends no Content-Type). */
  datatype Resolved = Resolved(name: string, content: seq<byte>, mime: Option<string>)

  /** Reply to an HTTP GET of an audio URL. */
  datatype HttpReply = HttpReply(status: int, body: seq<byte>, contentType: Option<string>)

  /** The outside world as the resolvers see it: readable files by path and
      reachable URLs with their replies. A path or URL that is not a key cannot
      be opened or reached. */
  datatype Env = Env(files: map<string, seq<byte>>, web: map<string, HttpReply>)

  /** The settings dictionary the host passes to the core (enum fields already
      turned into their string values). A missing `api_key` reads as "". */
  datatype Config = Config(
    useLocalModel: bool,
    apiKey: string,
    language: string,
    modelSize: string,
    modelPathOrId: string,
    device: string,
    computeType: string)

  /** Largest payload the remote API accepts: 25 * 1000000 bytes. */
  const MaxUploadBytes: nat := 25 * 1000000

  /** The fixed model field of every transcription request. */
  const RemoteModel: string := "whisper-1"

  /** One multipart POST to the transcription endpoint: the bearer key, the
      file part (name, bytes, MIME) and the form fields model and language. */
  datatype PostRequest = PostRequest(
    apiKey: string,
    fileName: string,
    content: seq<byte>,
    mime: Option<string>,
    model: string,
    language: string)

  /** The `error` member of a response body: absent, or an object whose
      `message` may itself be absent. */
  datatype ErrorBody = NoErrorObject | ErrorObject(message: Option<string>)

  /** A decoded JSON response of the transcription endpoint. */
  datatype ApiResponse = ApiResponse(status: int, text: Option<string>, error: ErrorBody)

  /** Outcome of one dispatch: the text or the error, and every POST sent. */
  datatype Run = Run(result: Result<string>, sent: seq<PostRequest>)
}

=== FILE: DataUri.dfy ===
/** The data-URI branch of the resolvers: the anchored pattern
    `data:audio/([a-zA-Z0-9]+);base64,`, the allow-list of audio subtypes with
    the file extension each one gets, and the base64 payload taken from the
    text after the first comma. Both resolver versions hold this code unchanged. */
module DataUri {
  import opened Common
  import opened Strings
  import opened Base64

  const Prefix: string := "data:audio/"
  const Marker: string := ";base64,"

  /** Subtypes the resolver accepts, with the extension of the synthesized
      file name. */
  const MimeToExt: map<string, string> :=
    map["wav" := "wav", "mpeg" := "mp3", "mp4" := "m4a", "ogg" := "ogg", "webm" := "webm"]

  /** `[a-zA-Z0-9]`: ASCII letters and digits only. */
  predicate IsAlnum(c: char)
  {
    ('a' <= c <= 'z') || ('A' <= c <= 'Z') || ('0' <= c <= '9')
  }

  predicate IsAlnumText(t: string)
  {
    forall k :: 0 <= k < |t| ==> IsAlnum(t[k])
  }

  /** Every character of `s` in [lo, hi) is a letter or digit. */
  predicate AlnumBetween(s: string, lo: nat, hi: nat)
    requires lo <= hi <= |s|
  {
    forall k :: lo <= k < hi ==> IsAlnum(s[k])
  }

  /** What the pattern promises: the URI begins with `data:audio/`, then a
      non-empty run of letters and digits `sub`, then `;base64,`. */
  predicate Matches(uri: string, sub: string)
  {
    |sub| >= 1 && IsAlnumText(sub) && StartsWith(uri, Prefix + sub + Marker)
  }

  /** End of the longest run of letters and digits that starts at `i`. */
  function AlnumEnd(s: string, i: nat): (j: nat)
    requires i <= |s|
    ensures i <= j <= |s| && AlnumBetween(s, i, j)
    ensures j < |s| ==> !IsAlnum(s[j])
    decreases |s| - i
  {
    if i == |s| || !IsAlnum(s[i]) then i else AlnumEnd(s, i + 1)
  }

  /** `re.match(pattern, uri).group(1)`, or None when the pattern does not
      match at the start. The greedy run cannot give back characters, since
      the `;` that must follow it is not a letter or digit. */
  function MatchSubtype(uri: string): (r: Option<string>)
    ensures r.Some? ==> Matches(uri, r.value)
  {
    if !StartsWith(uri, Prefix) then None
    else
      var j := AlnumEnd(uri, |Prefix|);
      if j == |Prefix| || !StartsWith(uri[j..], Marker) then None
      else
        var sub := uri[|Prefix|..j];
        assert IsAlnumText(sub) by {
          forall k | 0 <= k < |sub| ensures IsAlnum(sub[k]) {
            assert sub[k] == uri[|Prefix| + k];
          }
        }
        assert uri[..|Prefix + sub + Marker|] == Prefix + sub + Marker by {
          assert uri[..|Prefix|] == Prefix;
          assert uri[|Prefix|..j] == sub;
          assert uri[j..][..|Marker|] == Marker;
          assert uri[..|Prefix + sub + Marker|] == uri[..|Prefix|] + uri[|Prefix|..j] + uri[j..][..|Marker|];
        }
        Some(sub)
  }

  /** The run of letters and digits that a non-alnum character closes. */
  lemma {:induction false} AlnumEndAt(s: string, i: nat, j: nat)
    requires i <= j < |s| && AlnumBetween(s, i, j) && !IsAlnum(s[j])
    ensures AlnumEnd(s, i) == j
    decreases j - i
  {
    if i < j {
      AlnumEndAt(s, i + 1, j);
    }
  }

  /** The pattern finds the subtype whenever the URI has the promised shape:
      with the contract of MatchSubtype, the match succeeds exactly on such
      URIs and yields their subtype. */
  lemma MatchSubtypeComplete(uri: string, sub: string)
    requires Matches(uri, sub)
    ensures MatchSubtype(uri) == Some(sub)
  {
    var p := |Prefix|;
    var j := p + |sub|;
    assert uri[..|Prefix + sub + Marker|] == Prefix + sub + Marker;
    assert uri[..p] == Prefix;
    assert AlnumBetween(uri, p, j) by {
      forall k | p <= k < j ensures IsAlnum(uri[k]) {
        assert uri[k] == (Prefix + sub + Marker)[k] == sub[k - p];
      }
    }
    assert uri[j] == (Prefix + sub + Marker)[j] == ';';
    AlnumEndAt(uri, p, j);
    assert uri[j..][..|Marker|] == Marker by {
      forall k | 0 <= k < |Marker| ensures uri[j..][k] == Marker[k] {
        assert uri[j..][k] == (Prefix + sub + Marker)[j + k];
      }
    }
    assert uri[p..j] == sub by {
      forall k | 0 <= k < |sub| ensures uri[p..j][k] == sub[k] {
        assert uri[p..j][k] == (Prefix + sub + Marker)[p + k];
      }
    }
  }

  /** Where the payload starts in a matching URI. */
  function PayloadStart(sub: string): nat
  {
    |Prefix + sub + Marker|
  }

  /** A matching URI holds a comma, and its first comma is the one that
      ends `;base64,`. */
  lemma FirstCommaEndsMarker(uri: string, sub: string)
    requires Matches(uri, sub)
    ensures ',' in uri && FirstIndex(uri, ',') + 1 == PayloadStart(sub)
    ensures uri[FirstIndex(uri, ',') + 1..] == uri[PayloadStart(sub)..]
  {
    var head := Prefix + sub + Marker;
    assert uri[..|head|] == head;
    assert uri == head + uri[|head|..];
    assert head[|head| - 1] == ',';
    assert ',' !in head[..|head| - 1] by {
      forall k | 0 <= k < |head| - 1 ensures head[k] != ',' {
        if |Prefix| <= k < |Prefix| + |sub| {
          assert head[k] == sub[k - |Prefix|];
          assert IsAlnum(sub[k - |Prefix|]);
        }
      }
    }
    FirstIndexAfterPrefix(head, uri[|head|..], ',');
  }

  /** `data_uri.split(',')[1]`. A matching URI always holds a comma, so the
      second piece exists. */
  function Payload(uri: string): (p: string)
    requires ',' in uri
    ensures ',' !in p
  {
    Split(uri, ',')[1]
  }

  /** The payload is the text between the first comma (the one that closes
      `;base64,`) and the next comma, or the end of the URI. */
  lemma PayloadBetweenCommas(uri: string, sub: string)
    requires Matches(uri, sub)
    ensures ',' in uri && Payload(uri) == TakeUntil(uri[PayloadStart(sub)..], ',')
  {
    FirstCommaEndsMarker(uri, sub);
    SplitSecond(uri, ',');
  }

  /** `_handle_data_uri`: the resolved file is named `audio.<ext>`, holds the
      decoded payload, and carries the bare subtype as its MIME type. */
  function Handle(uri: string): (r: Result<Resolved>)
    ensures r.Ok? ==> r.value.mime.Some? && r.value.mime.value in MimeToExt
    ensures r.Ok? ==> r.value.name == "audio." + MimeToExt[r.value.mime.value]
  {
    match MatchSubtype(uri)
    case None => Err(InvalidDataUri)
    case Some(sub) =>
      if sub !in MimeToExt then Err(UnsupportedMimeType(sub))
      else
        FirstCommaEndsMarker(uri, sub);
        match Decode(Payload(uri))
        case None => Err(InvalidBase64)
        case Some(audio) => Ok(Resolved("audio." + MimeToExt[sub], audio, Some(sub)))
  }

  /** A URI of the promised shape is rejected only for an unlisted subtype or
      an undecodable payload; otherwise it yields the decoded text between the
      commas, the mapped file name and the bare subtype. */
  lemma HandleMatched(uri: string, sub: string)
    requires Matches(uri, sub)
    ensures sub !in MimeToExt ==> Handle(uri) == Err(UnsupportedMimeType(sub))
    ensures sub in MimeToExt ==>
      Handle(uri) == match Decode(TakeUntil(uri[PayloadStart(sub)..], ','))
                     case None => Err(InvalidBase64)
                     case Some(audio) => Ok(Resolved("audio." + MimeToExt[sub], audio, Some(sub)))
  {
    MatchSubtypeComplete(uri, sub);
    PayloadBetweenCommas(uri, sub);
  }

  /** A URI without the promised shape is an invalid data URI. */
  lemma HandleUnmatched(uri: string)
    requires forall sub :: !Matches(uri, sub)
    ensures Handle(uri) == Err(InvalidDataUri)
  {
  }

  /** Encoding audio into a data URI of a listed subtype and resolving it gives
      the audio back, whatever comma-led text follows the payload. */
  lemma HandleRoundTrip(sub: string, audio: seq<byte>, tail: string)
    requires sub in MimeToExt
    requires tail == "" || tail[0] == ','
    ensures Handle(Prefix + sub + Marker + Encode(audio) + tail) == Ok(Resolved("audio." + MimeToExt[sub], audio, Some(sub)))
  {
    var head, e := Prefix + sub + Marker, Encode(audio);
    var uri := head + e + tail;
    assert Matches(uri, sub) && uri[PayloadStart(sub)..] == e + tail by {
      assert IsAlnumText(sub);
      assert uri == head + (e + tail);
    }
    assert TakeUntil(uri[PayloadStart(sub)..], ',') == e by {
      EncodeHasNoComma(audio);
      TakeUntilBefore(e, tail, ',');
    }
    DecodeEncode(audio);
    HandleMatched(uri, sub);
  }

  /** Text free of `c` followed by a `c`-led tail is cut exactly before it. */
  lemma TakeUntilBefore(s: string, tail: string, c: char)
    requires c !in s && (tail == "" || tail[0] == c)
    ensures TakeUntil(s + tail, c) == s
  {
    var t := s + tail;
    if tail == "" {
      assert t == s;
    } else {
      assert t[|s|] == c;
      var i := FirstIndex(t, c);
      assert t[..|s|] == s;
      assert t[|s|] in t[..i + 1];
      assert i == |s|;
    }
  }

  /** A subtype outside the list, such as `flac`, is refused. */
  lemma FlacUnsupported()
    ensures Handle("data:audio/flac;base64,AAAA") == Err(UnsupportedMimeType("flac"))
  {
    var uri := "data:audio/flac;base64,AAAA";
    assert Matches(uri, "flac") by {
      assert IsAlnumText("flac");
      assert uri == Prefix + "flac" + Marker + "AAAA";
    }
    assert "flac" !in MimeToExt by {
      assert "flac"[0] != "wav"[0] && "flac"[0] != "mpeg"[0] && "flac"[0] != "ogg"[0] && "flac"[0] != "webm"[0];
    }
    HandleMatched(uri, "flac");
  }

  /** A subtype with a character outside `[a-zA-Z0-9]` (`x-wav`) does not
      match the pattern at all. */
  lemma DashedSubtypeInvalid()
    ensures Handle("data:audio/x-wav;base64,AAAA") == Err(InvalidDataUri)
  {
    var uri := "data:audio/x-wav;base64,AAAA";
    assert uri[|Prefix|..][..2] == "x-";
    AlnumEndAt(uri, |Prefix|, |Prefix| + 1);
  }

  /** Without `;base64,` the pattern does not match. */
  lemma MissingMarkerInvalid()
    ensures Handle("data:audio/wav,AAAA") == Err(InvalidDataUri)
  {
    var uri := "data:audio/wav,AAAA";
    AlnumEndAt(uri, |Prefix|, |Prefix| + 3);
  }
}

=== FILE: ModelCache.dfy ===
/** The local model cache of `LocalWhisper`: at most one loaded model, the id
    it was requested under, and the model cache directory on disk. Downloading
    and loading are outside calls whose outcome is a parameter; a loaded model
    is an opaque instance numbered by the load that built it. */
module ModelCache {
  import opened Common

  /** The settings value that selects a custom model path or id. */
  const OtherSentinel: string := "other"

  /** A constructed `WhisperModel`: which load built it, and the model id,
      device and compute type it was built with. */
  datatype ModelInstance = ModelInstance(serial: nat, modelId: string, device: string, computeType: string)

  /** The class-level fields `whisper` and `current_model`, the ids present in
      the model cache directory, and how many downloads were attempted and how
      many models were constructed so far. */
  datatype CacheState = CacheState(
    whisper: Option<ModelInstance>,
    currentModel: Option<string>,
    downloaded: set<string>,
    downloads: nat,
    loads: nat)

  /** A fresh process: nothing loaded, and whatever the cache directory holds. */
  function Initial(disk: set<string>): CacheState
  {
    CacheState(None, None, disk, 0, 0)
  }

  /** `_get_model_id`: the custom path or id when the size setting is the
      lower-case sentinel, the size setting itself otherwise. */
  function GetModelId(cfg: Config): (id: string)
    ensures cfg.modelSize == OtherSentinel ==> id == cfg.modelPathOrId
    ensures cfg.modelSize != OtherSentinel ==> id == cfg.modelSize
  {
    if cfg.modelSize == OtherSentinel then cfg.modelPathOrId else cfg.modelSize
  }

  /** `_model_downloaded`: the local-only probe succeeds exactly for the ids
      already in the cache directory. */
  predicate ModelDownloaded(st: CacheState, id: string)
  {
    id in st.downloaded
  }

  /** The fast path: a model is loaded and the stored id is the requested one. */
  predicate IsHit(st: CacheState, id: string)
  {
    st.whisper.Some? && st.currentModel == Some(id)
  }

  /** The invariant every reachable state keeps: the held instance is the one
      the last load built and its model is on disk, a stored id is on disk,
      and an instance is held exactly when a load has happened. */
  predicate Valid(st: CacheState)
  {
    && (st.whisper.Some? ==> st.whisper.value.serial == st.loads && st.whisper.value.modelId in st.downloaded)
    && (st.currentModel.Some? ==> st.currentModel.value in st.downloaded)
    && (st.whisper.Some? <==> st.loads > 0)
    && (st.whisper.Some? ==> st.currentModel.Some?)
  }

  datatype Acquired = Acquired(state: CacheState, result: Result<ModelInstance>)

  /** `get_instance` as a transition. `downloadOk` and `loadOk` are the
      outcomes of `download_model` and of the `WhisperModel` constructor on
      this call. The requested id is stored before the model is built, so a
      failed build leaves the previous instance under the new id. */
  function Acquire(st: CacheState, id: string, device: string, computeType: string,
                   downloadOk: bool, loadOk: bool): (a: Acquired)
    ensures a.state.loads <= st.loads + 1 && a.state.downloads <= st.downloads + 1
    ensures IsHit(st, id) ==> a == Acquired(st, Ok(st.whisper.value))
    ensures a.state.downloads == st.downloads + 1 <==> !IsHit(st, id) && !ModelDownloaded(st, id)
    ensures a.result.Ok? ==> IsHit(a.state, id) && a.state.whisper == Some(a.result.value)
    ensures !IsHit(st, id) && a.result.Ok? ==>
      a.result.value == ModelInstance(st.loads + 1, id, device, computeType) && a.state.loads == st.loads + 1
    ensures a.result.Err? ==> a.state.whisper == st.whisper && a.state.loads == st.loads
  {
    if IsHit(st, id) then Acquired(st, Ok(st.whisper.value))
    else
      var fetched :=
        if ModelDownloaded(st, id) then st
        else st.(downloads := st.downloads + 1);
      if !ModelDownloaded(st, id) && !downloadOk then Acquired(fetched, Err(ModelDownloadFailed(id)))
      else
        var named := fetched.(downloaded := fetched.downloaded + {id}, currentModel := Some(id));
        if !loadOk then Acquired(named, Err(ModelLoadFailed(id)))
        else
          var w := ModelInstance(st.loads + 1, id, device, computeType);
          Acquired(named.(whisper := Some(w), loads := st.loads + 1), Ok(w))
  }

  /** Every transition keeps the invariant. */
  lemma AcquireKeepsValid(st: CacheState, id: string, device: string, computeType: string,
                          downloadOk: bool, loadOk: bool)
    requires Valid(st)
    ensures Valid(Acquire(st, id, device, computeType, downloadOk, loadOk).state)
  {
  }

  /** Only the model id decides a hit: on a hit, any device and compute type
      get the cached instance back, with no download and no load. */
  lemma HitIgnoresDeviceAndComputeType(st: CacheState, id: string, d1: string, c1: string, d2: string, c2: string,
                                       o1: bool, l1: bool, o2: bool, l2: bool)
    requires IsHit(st, id)
    ensures Acquire(st, id, d1, c1, o1, l1) == Acquire(st, id, d2, c2, o2, l2) == Acquired(st, Ok(st.whisper.value))
  {
  }

  /** A miss on a model already on disk downloads nothing; a miss on a model
      that is not downloads once. */
  lemma MissDownloadsOnlyWhenAbsent(st: CacheState, id: string, device: string, computeType: string,
                                    downloadOk: bool, loadOk: bool)
    requires !IsHit(st, id)
    ensures var a := Acquire(st, id, device, computeType, downloadOk, loadOk);
      (ModelDownloaded(st, id) ==> a.state.downloads == st.downloads) &&
      (!ModelDownloaded(st, id) ==> a.state.downloads == st.downloads + 1)
  {
  }

  /** After a successful miss the stored id is the requested one, the held
      instance is the one just built with the requested device and compute
      type, and the model is on disk. */
  lemma MissLoadsRequested(st: CacheState, id: string, device: string, computeType: string, downloadOk: bool)
    requires !IsHit(st, id)
    requires ModelDownloaded(st, id) || downloadOk
    ensures var a := Acquire(st, id, device, computeType, downloadOk, true);
      a.result == Ok(ModelInstance(st.loads + 1, id, device, computeType)) &&
      a.state.currentModel == Some(id) && a.state.whisper == Some(a.result.value) &&
      ModelDownloaded(a.state, id)
  {
  }

  /** Asking again for the model just obtained returns the same instance and
      neither downloads nor loads. */
  lemma SecondAcquireReuses(st: CacheState, id: string, d1: string, c1: string, o1: bool, l1: bool,
                            d2: string, c2: string, o2: bool, l2: bool)
    requires Acquire(st, id, d1, c1, o1, l1).result.Ok?
    ensures var a := Acquire(st, id, d1, c1, o1, l1);
      Acquire(a.state, id, d2, c2, o2, l2) == Acquired(a.state, a.result)
  {
  }

  /** The stored id is updated before the model is built. When the build
      fails, the id names the new model while the previous instance stays
      held, and the next request for that id gets the previous instance. */
  lemma StaleAfterFailedLoad(st: CacheState, id: string, device: string, computeType: string, downloadOk: bool,
                             d2: string, c2: string, o2: bool, l2: bool)
    requires st.whisper.Some? && st.currentModel != Some(id)
    requires ModelDownloaded(st, id) || downloadOk
    ensures var a := Acquire(st, id, device, computeType, downloadOk, false);
      a.result == Err(ModelLoadFailed(id)) &&
      a.state.currentModel == Some(id) && a.state.whisper == st.whisper &&
      Acquire(a.state, id, d2, c2, o2, l2) == Acquired(a.state, Ok(st.whisper.value))
  {
  }

  /** One later request: its device, compute type and call outcomes. */
  datatype Request = Request(device: string, computeType: string, downloadOk: bool, loadOk: bool)

  /** The cache after serving `reqs` in order, all for the model `id`. */
  function AcquireAll(st: CacheState, id: string, reqs: seq<Request>): CacheState
    decreases |reqs|
  {
    if |reqs| == 0 then st
    else
      var r := reqs[0];
      AcquireAll(Acquire(st, id, r.device, r.computeType, r.downloadOk, r.loadOk).state, id, reqs[1..])
  }

  /** Once the model is loaded under its id, any number of requests for it
      leave the cache untouched. */
  lemma {:induction false} HitsChangeNothing(st: CacheState, id: string, reqs: seq<Request>)
    requires IsHit(st, id)
    ensures AcquireAll(st, id, reqs) == st
    decreases |reqs|
  {
    if |reqs| > 0 {
      HitsChangeNothing(st, id, reqs[1..]);
    }
  }

  /** However many times one model id is requested in a row, at most one
      model is constructed. */
  lemma {:induction false} OneModelLoadsOnce(st: CacheState, id: string, reqs: seq<Request>)
    ensures AcquireAll(st, id, reqs).loads <= st.loads + 1
    decreases |reqs|
  {
    if |reqs| > 0 {
      var r := reqs[0];
      var a := Acquire(st, id, r.device, r.computeType, r.downloadOk, r.loadOk);
      if a.result.Ok? {
        HitsChangeNothing(a.state, id, reqs[1..]);
      } else {
        OneModelLoadsOnce(a.state, id, reqs[1..]);
      }
    }
  }

  /** The class holding the cache. The source keeps these as class-level
      fields of a singleton; here they are the fields of one cache object. */
  class LocalWhisper {
    var whisper: Option<ModelInstance>
    var currentModel: Option<string>
    var downloaded: set<string>
    var downloads: nat
    var loads: nat

    function State(): CacheState
      reads this
    {
      CacheState(whisper, currentModel, downloaded, downloads, loads)
    }

    predicate IsValid()
      reads this
    {
      Valid(State())
    }

    constructor (disk: set<string>)
      ensures State() == Initial(disk) && IsValid()
    {
      whisper := None;
      currentModel := None;
      downloaded := disk;
      downloads := 0;
      loads := 0;
    }

    /** `_model_downloaded(model)`. */
    method ModelIsDownloaded(model: string) returns (present: bool)
      ensures present <==> model in downloaded
    {
      present := model in downloaded;
    }

    /** `get_instance(settings)`, step by step; it makes the transition
        `Acquire` describes and keeps the invariant. */
    method GetInstance(cfg: Config, downloadOk: bool, loadOk: bool) returns (r: Result<ModelInstance>)
      requires IsValid()
      modifies this
      ensures IsValid()
      ensures Acquired(State(), r) ==
        Acquire(old(State()), GetModelId(cfg), cfg.device, cfg.computeType, downloadOk, loadOk)
    {
      AcquireKeepsValid(State(), GetModelId(cfg), cfg.device, cfg.computeType, downloadOk, loadOk);
      var model := GetModelId(cfg);
      var device := cfg.device;
      var computeType := cfg.computeType;
      if whisper.Some? && currentModel == Some(model) {
        return Ok(whisper.value);
      }
      var present := ModelIsDownloaded(model);
      if !present {
        downloads := downloads + 1;
        if !downloadOk {
          return Err(ModelDownloadFailed(model));
        }
      }
      downloaded := downloaded + {model};
      currentModel := Some(model);
      if !loadOk {
        return Err(ModelLoadFailed(model));
      }
      loads := loads + 1;
      whisper := Some(ModelInstance(loads, model, device, computeType));
      r := Ok(whisper.value);
    }
  }
}

=== FILE: PathNames.dfy ===
/** The path helpers the resolvers use: `os.path.basename`, `name.split('.')[-1]`
    and the extension part of `os.path.splitext`, for POSIX paths. */
module PathNames {
  import opened Strings

  /** No character of `s` in [lo, hi) is `c`. */
  predicate FreeOf(s: string, c: char, lo: nat, hi: nat)
    requires lo <= hi <= |s|
  {
    forall k :: lo <= k < hi ==> s[k] != c
  }

  /** Where the `c`-free stretch that ends at `hi` begins: just after the
      last `c` before `hi`, or 0. */
  function FieldStart(s: string, c: char, hi: nat): (i: nat)
    requires hi <= |s|
    ensures i <= hi && FreeOf(s, c, i, hi)
    ensures i > 0 ==> s[i - 1] == c
    decreases hi
  {
    if hi == 0 then 0
    else if s[hi - 1] == c then hi
    else FieldStart(s, c, hi - 1)
  }

  /** The longest suffix of `s` free of `c`: everything after the last `c`,
      or all of `s` when it has none. */
  function AfterLast(s: string, c: char): (r: string)
    ensures |r| <= |s| && r == s[|s| - |r|..]
    ensures c !in r
    ensures |r| < |s| ==> s[|s| - |r| - 1] == c
  {
    var i := FieldStart(s, c, |s|);
    assert c !in s[i..] by {
      assert FreeOf(s, c, i, |s|);
      forall k | 0 <= k < |s| - i ensures s[i..][k] != c {
        assert s[i..][k] == s[i + k];
      }
    }
    s[i..]
  }

  /** The suffix after a separator that ends the rest is exactly that tail. */
  lemma AfterLastOf(p: string, c: char, e: string)
    requires c !in e
    ensures AfterLast(p + [c] + e, c) == e
  {
    var s := p + [c] + e;
    var r := AfterLast(s, c);
    assert s[|p|] == c;
    assert s[|p| + 1..] == e;
  }

  /** `os.path.basename(p)`: the text after the last `/`. */
  function Basename(p: string): (name: string)
    ensures '/' !in name
  {
    AfterLast(p, '/')
  }

  /** A name without `/`, given bare or below a directory, is its own base
      name. */
  lemma BasenameOfName(dir: string, name: string, path: string)
    requires '/' !in name && (path == name || path == dir + "/" + name)
    ensures Basename(path) == name
  {
    if path == name {
      assert name[|name| - |name|..] == name;
      AfterLastUnique(name, '/', name);
    } else {
      assert path == dir + ['/'] + name;
      AfterLastOf(dir, '/', name);
    }
  }

  /** Every path is either a bare name or a directory, a `/` and its base
      name, so the two shapes of `BasenameOfName` cover all paths. */
  lemma PathIsDirAndName(path: string)
    ensures var name := Basename(path);
      ('/' !in path ==> name == path) &&
      ('/' in path ==> path == path[..|path| - |name| - 1] + "/" + name)
  {
    var name := Basename(path);
    if '/' !in path {
      assert path[|path| - |path|..] == path;
      AfterLastUnique(path, '/', path);
    } else {
      assert path == path[..|path| - |name| - 1] + [path[|path| - |name| - 1]] + path[|path| - |name|..];
    }
  }

  /** A `c`-free suffix that is all of `s` or follows a `c` is the text
      after the last `c`. */
  lemma AfterLastUnique(s: string, c: char, r: string)
    requires FieldAtEnd(s, c, r)
    ensures AfterLast(s, c) == r
  {
  }

  /** The last piece of `s.split(c)` is the text after the last `c`. */
  lemma LastPieceIsAfterLast(s: string, c: char)
    ensures var parts := Split(s, c); parts[|parts| - 1] == AfterLast(s, c)
  {
    var parts := Split(s, c);
    SplitLastIsSuffix(s, c);
    AfterLastUnique(s, c, parts[|parts| - 1]);
  }

  /** `name.split('.')[-1]`: the last dot-separated piece, that is the text
      after the last dot (all of `name` when it holds no dot). Case is kept
      as written. */
  function LastDotField(name: string): (ext: string)
    ensures '.' !in ext
    ensures ext == AfterLast(name, '.')
  {
    var parts := Split(name, '.');
    LastPieceIsAfterLast(name, '.');
    parts[|parts| - 1]
  }

  predicate AllDots(s: string)
  {
    forall k :: 0 <= k < |s| ==> s[k] == '.'
  }

  /** `os.path.splitext(name)[1][1:]` for a base name: the text after the
      last dot, unless there is no dot or only dots come before it (a dot
      file such as ".wav" has no extension). */
  function SplitExtSuffix(name: string): string
  {
    var e := AfterLast(name, '.');
    if |e| == |name| then ""
    else if AllDots(name[..|name| - |e| - 1]) then ""
    else e
  }

  /** An ordinary name "stem.ext" has extension "ext". */
  lemma SplitExtOfStem(stem: string, ext: string)
    requires '.' !in ext && !AllDots(stem)
    ensures SplitExtSuffix(stem + "." + ext) == ext
  {
    var name := stem + "." + ext;
    assert name == stem + ['.'] + ext;
    AfterLastOf(stem, '.', ext);
    assert name[..|name| - |ext| - 1] == stem;
  }

  /** A name without a dot has no extension. */
  lemma SplitExtNoDot(name: string)
    requires '.' !in name
    ensures SplitExtSuffix(name) == ""
  {
    assert name[|name| - |name|..] == name;
    AfterLastUnique(name, '.', name);
  }

  /** A name whose only dots lead it has none either. */
  lemma SplitExtEmpty(dots: string, ext: string)
    requires '.' !in ext && AllDots(dots)
    ensures SplitExtSuffix(dots + "." + ext) == ""
  {
    var name := dots + "." + ext;
    assert name == dots + ['.'] + ext;
    AfterLastOf(dots, '.', ext);
    assert name[..|name| - |ext| - 1] == dots;
  }
}

=== FILE: PluginSettings.dfy ===
/** `src/settings.py`: the plugin's settings record, the value sets of its
    three enumerations, its defaults and the two cross-field validators, and
    the plain settings dictionary the rest of the plugin reads. The language
    is an opaque language-code string. */
module PluginSettings {
  import opened Common
  import ModelCache

  datatype ModelSize =
    | Tiny | TinyEn | Base | BaseEn | Small | SmallEn | Medium | MediumEn
    | LargeV1 | LargeV2 | LargeV3 | Large | Other

  datatype Device = Cpu | Cuda | AutoDevice

  datatype ComputeType =
    | Int8 | Int8Float32 | Int8Float16 | Int8BFloat16 | Int16 | Float16 | BFloat16 | Float32

  /** The value of each model size member. `Other` is capitalised. */
  function ModelSizeValue(m: ModelSize): string
  {
    match m
    case Tiny => "tiny"
    case TinyEn => "tiny.en"
    case Base => "base"
    case BaseEn => "base.en"
    case Small => "small"
    case SmallEn => "small.en"
    case Medium => "medium"
    case MediumEn => "medium.en"
    case LargeV1 => "large-v1"
    case LargeV2 => "large-v2"
    case LargeV3 => "large-v3"
    case Large => "large"
    case Other => "Other"
  }

  function DeviceValue(d: Device): string
  {
    match d
    case Cpu => "cpu"
    case Cuda => "cuda"
    case AutoDevice => "auto"
  }

  function ComputeTypeValue(c: ComputeType): string
  {
    match c
    case Int8 => "int8"
    case Int8Float32 => "int8_float32"
    case Int8Float16 => "int8_float16"
    case Int8BFloat16 => "int8_bfloat16"
    case Int16 => "int16"
    case Float16 => "float16"
    case BFloat16 => "bfloat16"
    case Float32 => "float32"
  }

  /** `ModelSize(v)`: the member with value `v`, if any. Lookup is by exact
      value, so case matters. */
  function ParseModelSize(v: string): (m: Option<ModelSize>)
    ensures m.Some? ==> ModelSizeValue(m.value) == v
    ensures m.None? ==> forall s :: ModelSizeValue(s) != v
  {
    if v == "tiny" then Some(Tiny)
    else if v == "tiny.en" then Some(TinyEn)
    else if v == "base" then Some(Base)
    else if v == "base.en" then Some(BaseEn)
    else if v == "small" then Some(Small)
    else if v == "small.en" then Some(SmallEn)
    else if v == "medium" then Some(Medium)
    else if v == "medium.en" then Some(MediumEn)
    else if v == "large-v1" then Some(LargeV1)
    else if v == "large-v2" then Some(LargeV2)
    else if v == "large-v3" then Some(LargeV3)
    else if v == "large" then Some(Large)
    else if v == "Other" then Some(Other)
    else None
  }

  /** `Device(v)`. */
  function ParseDevice(v: string): (d: Option<Device>)
    ensures d.Some? ==> DeviceValue(d.value) == v
    ensures d.None? ==> forall x :: DeviceValue(x) != v
  {
    if v == "cpu" then Some(Cpu)
    else if v == "cuda" then Some(Cuda)
    else if v == "auto" then Some(AutoDevice)
    else None
  }

  /** `ComputeType(v)`. */
  function ParseComputeType(v: string): (c: Option<ComputeType>)
    ensures c.Some? ==> ComputeTypeValue(c.value) == v
    ensures c.None? ==> forall x :: ComputeTypeValue(x) != v
  {
    if v == "int8" then Some(Int8)
    else if v == "int8_float32" then Some(Int8Float32)
    else if v == "int8_float16" then Some(Int8Float16)
    else if v == "int8_bfloat16" then Some(Int8BFloat16)
    else if v == "int16" then Some(Int16)
    else if v == "float16" then Some(Float16)
    else if v == "bfloat16" then Some(BFloat16)
    else if v == "float32" then Some(Float32)
    else None
  }

  /** Every member is found again from its value: the values are distinct. */
  lemma ModelSizeRoundTrip(m: ModelSize)
    ensures ParseModelSize(ModelSizeValue(m)) == Some(m)
  {
    var v := ModelSizeValue(m);
    var r := ParseModelSize(v);
    assert r.Some?;
    ModelSizeValuesDistinct(r.value, m);
  }

  lemma DeviceRoundTrip(d: Device)
    ensures ParseDevice(DeviceValue(d)) == Some(d)
  {
  }

  lemma ComputeTypeRoundTrip(c: ComputeType)
    ensures ParseComputeType(ComputeTypeValue(c)) == Some(c)
  {
    var r := ParseComputeType(ComputeTypeValue(c));
    assert r.Some?;
    ComputeTypeValuesDistinct(r.value, c);
  }

  /** Two model sizes with the same value are the same member. */
  lemma ModelSizeValuesDistinct(a: ModelSize, b: ModelSize)
    requires ModelSizeValue(a) == ModelSizeValue(b)
    ensures a == b
  {
    var va, vb := ModelSizeValue(a), ModelSizeValue(b);
    assert |va| == |vb| && va[0] == vb[0];
    if |va| > 5 {
      assert va[5] == vb[5];
    }
    if |va| > 7 {
      assert va[7] == vb[7];
    }
  }

  lemma ComputeTypeValuesDistinct(a: ComputeType, b: ComputeType)
    requires ComputeTypeValue(a) == ComputeTypeValue(b)
    ensures a == b
  {
    var va, vb := ComputeTypeValue(a), ComputeTypeValue(b);
    assert |va| == |vb| && va[0] == vb[0];
    if |va| > 5 {
      assert va[5] == vb[5] && va[|va| - 2] == vb[|vb| - 2];
    }
  }

  const AllModelSizes: seq<ModelSize> :=
    [Tiny, TinyEn, Base, BaseEn, Small, SmallEn, Medium, MediumEn, LargeV1, LargeV2, LargeV3, Large, Other]
  const AllDevices: seq<Device> := [Cpu, Cuda, AutoDevice]
  const AllComputeTypes: seq<ComputeType> :=
    [Int8, Int8Float32, Int8Float16, Int8BFloat16, Int16, Float16, BFloat16, Float32]

  /** The value sets: 13 model sizes with 13 distinct values. */
  lemma ModelSizeValueSet()
    ensures |AllModelSizes| == 13 && forall m :: m in AllModelSizes
    ensures forall i, j :: 0 <= i < j < |AllModelSizes| ==>
      ModelSizeValue(AllModelSizes[i]) != ModelSizeValue(AllModelSizes[j])
  {
    forall m: ModelSize ensures m in AllModelSizes {
      match m
      case Tiny => case TinyEn => case Base => case BaseEn => case Small => case SmallEn =>
      case Medium => case MediumEn => case LargeV1 => case LargeV2 => case LargeV3 => case Large =>
      case Other =>
    }
    forall i, j | 0 <= i < j < |AllModelSizes|
      ensures ModelSizeValue(AllModelSizes[i]) != ModelSizeValue(AllModelSizes[j])
    {
      if ModelSizeValue(AllModelSizes[i]) == ModelSizeValue(AllModelSizes[j]) {
        ModelSizeValuesDistinct(AllModelSizes[i], AllModelSizes[j]);
      }
    }
  }

  /** 3 devices with 3 distinct values. */
  lemma DeviceValueSet()
    ensures |AllDevices| == 3 && forall d :: d in AllDevices
    ensures forall i, j :: 0 <= i < j < |AllDevices| ==> DeviceValue(AllDevices[i]) != DeviceValue(AllDevices[j])
  {
    forall d: Device ensures d in AllDevices {
      match d
      case Cpu => case Cuda => case AutoDevice =>
    }
  }

  /** 8 compute types with 8 distinct values. */
  lemma ComputeTypeValueSet()
    ensures |AllComputeTypes| == 8 && forall c :: c in AllComputeTypes
    ensures forall i, j :: 0 <= i < j < |AllComputeTypes| ==>
      ComputeTypeValue(AllComputeTypes[i]) != ComputeTypeValue(AllComputeTypes[j])
  {
    forall c: ComputeType ensures c in AllComputeTypes {
      match c
      case Int8 => case Int8Float32 => case Int8Float16 => case Int8BFloat16 =>
      case Int16 => case Float16 => case BFloat16 => case Float32 =>
    }
    forall i, j | 0 <= i < j < |AllComputeTypes|
      ensures ComputeTypeValue(AllComputeTypes[i]) != ComputeTypeValue(AllComputeTypes[j])
    {
      if ComputeTypeValue(AllComputeTypes[i]) == ComputeTypeValue(AllComputeTypes[j]) {
        ComputeTypeValuesDistinct(AllComputeTypes[i], AllComputeTypes[j]);
      }
    }
  }

  /** The settings record. `apiKey` is the secret's plain text. */
  datatype Settings = Settings(
    language: string,
    useLocalModel: bool,
    apiKey: string,
    modelSize: ModelSize,
    device: Device,
    computeType: ComputeType,
    modelPathOrId: string,
    audioKey: string)

  /** The field defaults. */
  const Defaults: Settings := Settings("en", true, "", Base, AutoDevice, Float32, "", "audio")

  /** `validate_model_path_or_id`: size `Other` needs a custom path. */
  function ValidateModelPathOrId(s: Settings): (r: Result<Settings>)
    ensures r.Err? <==> s.modelSize == Other && s.modelPathOrId == ""
    ensures r.Err? ==> r.error == CustomModelPathRequired
    ensures r.Ok? ==> r.value == s
  {
    if s.modelSize == Other && s.modelPathOrId == "" then Err(CustomModelPathRequired) else Ok(s)
  }

  /** `validate_api_key`: online mode needs a key. */
  function ValidateApiKey(s: Settings): (r: Result<Settings>)
    ensures r.Err? <==> !s.useLocalModel && s.apiKey == ""
    ensures r.Err? ==> r.error == ApiKeyRequired
    ensures r.Ok? ==> r.value == s
  {
    if !s.useLocalModel && s.apiKey == "" then Err(ApiKeyRequired) else Ok(s)
  }

  /** Both validators, in declaration order: the first refusal is reported. */
  function Validate(s: Settings): (r: Result<Settings>)
    ensures r.Ok? <==> ValidateModelPathOrId(s).Ok? && ValidateApiKey(s).Ok?
    ensures r.Ok? ==> r.value == s
    ensures s.modelSize == Other && s.modelPathOrId == "" ==> r == Err(CustomModelPathRequired)
  {
    match ValidateModelPathOrId(s)
    case Err(e) => Err(e)
    case Ok(t) => ValidateApiKey(t)
  }

  /** The defaults are accepted: offline mode needs no key and size `base`
      needs no custom path. */
  lemma DefaultsValid()
    ensures Validate(Defaults) == Ok(Defaults)
  {
  }

  /** Offline mode accepts an empty key; a non-empty custom path satisfies
      size `Other`. */
  lemma ValidatorsAccept(s: Settings)
    requires s.useLocalModel || s.apiKey != ""
    requires s.modelSize != Other || s.modelPathOrId != ""
    ensures Validate(s) == Ok(s)
  {
  }

  /** The settings dictionary the transcription code reads: enum members are
      stored as their values, so each enum field parses back to the member
      that was set, and the free-text fields are passed on as they are. */
  function ToConfig(s: Settings): (cfg: Config)
    ensures ParseModelSize(cfg.modelSize) == Some(s.modelSize)
    ensures ParseDevice(cfg.device) == Some(s.device)
    ensures ParseComputeType(cfg.computeType) == Some(s.computeType)
    ensures cfg.useLocalModel == s.useLocalModel && cfg.apiKey == s.apiKey
    ensures cfg.language == s.language && cfg.modelPathOrId == s.modelPathOrId
  {
    ModelSizeRoundTrip(s.modelSize);
    DeviceRoundTrip(s.device);
    ComputeTypeRoundTrip(s.computeType);
    Config(s.useLocalModel, s.apiKey, s.language, ModelSizeValue(s.modelSize), s.modelPathOrId,
           DeviceValue(s.device), ComputeTypeValue(s.computeType))
  }

  /** No model size has the lower-case value `other` that the model cache
      tests for. */
  lemma NoSizeIsOtherSentinel(m: ModelSize)
    ensures ModelSizeValue(m) != ModelCache.OtherSentinel
  {
    assert ParseModelSize(ModelCache.OtherSentinel) == None;
  }

  /** So the model cache always asks for the size value: with size `Other`
      it asks for the model "Other", and the custom path or id the validator
      insisted on is never used. */
  lemma ModelIdIsSizeValue(s: Settings)
    ensures ModelCache.GetModelId(ToConfig(s)) == ModelSizeValue(s.modelSize)
    ensures s.modelSize == Other ==> ModelCache.GetModelId(ToConfig(s)) == "Other"
  {
    NoSizeIsOtherSentinel(s.modelSize);
  }
}

=== FILE: Strings.dfy ===
/** The few Python string operations the core relies on: `startswith`,
    `str.split(sep)` with a one-character separator, and `"".join(parts)`. */
module Strings {

  predicate StartsWith(s: string, prefix: string)
  {
    |prefix| <= |s| && s[..|prefix|] == prefix
  }

  /** Position of the first occurrence of `c` in `s`. */
  function FirstIndex(s: string, c: char): (i: nat)
    requires c in s
    ensures i < |s| && s[i] == c && c !in s[..i]
  {
    FirstIndexFrom(s, c, 0)
  }

  /** Position of the first occurrence of `c` in `s` at or after `j`. */
  function FirstIndexFrom(s: string, c: char, j: nat): (i: nat)
    requires j <= |s| && c in s[j..]
    ensures j <= i < |s| && s[i] == c
    ensures forall k :: j <= k < i ==> s[k] != c
    decreases |s| - j
  {
    if s[j] == c then j
    else
      assert c in s[j + 1..] by {
        var k :| j <= k < |s| && s[k] == c;
        assert s[j..][k - j] == c;
        assert s[j + 1..][k - j - 1] == c;
      }
      FirstIndexFrom(s, c, j + 1)
  }

  /** `sep.join(parts)` for a one-character separator. */
  function JoinWith(parts: seq<string>, sep: char): string
  {
    if |parts| == 0 then ""
    else if |parts| == 1 then parts[0]
    else parts[0] + [sep] + JoinWith(parts[1..], sep)
  }

  /** No piece holds the separator. */
  predicate NoneContains(parts: seq<string>, sep: char)
  {
    forall k :: 0 <= k < |parts| ==> sep !in parts[k]
  }

  /** `s.split(sep)`: the maximal pieces of `s` between occurrences of `sep`;
      there is always one more piece than there are separators. */
  function Split(s: string, sep: char): (parts: seq<string>)
    ensures |parts| >= 1
    ensures NoneContains(parts, sep)
    ensures sep in s <==> |parts| >= 2
    decreases |s|
  {
    if sep !in s then [s]
    else
      var i := FirstIndex(s, sep);
      [s[..i]] + Split(s[i + 1..], sep)
  }

  /** Joining the pieces with the separator gives back the string. */
  lemma {:induction false} SplitJoin(s: string, sep: char)
    ensures JoinWith(Split(s, sep), sep) == s
    decreases |s|
  {
    if sep in s {
      var i := FirstIndex(s, sep);
      var rest := Split(s[i + 1..], sep);
      SplitJoin(s[i + 1..], sep);
      assert Split(s, sep) == [s[..i]] + rest;
      assert JoinWith(Split(s, sep), sep) == s[..i] + [sep] + JoinWith(rest, sep);
      assert s == s[..i] + [sep] + s[i + 1..];
    }
  }

  /** `r` is a `sep`-free suffix of `s` that is all of `s` or follows a `sep`. */
  predicate FieldAtEnd(s: string, sep: char, r: string)
  {
    && |r| <= |s| && r == s[|s| - |r|..] && sep !in r
    && (|r| < |s| ==> s[|s| - |r| - 1] == sep)
  }

  /** A field at the end of what follows a separator of `s` is a field at
      the end of `s`. */
  lemma FieldAtEndOfRest(s: string, i: nat, sep: char, r: string)
    requires i < |s| && s[i] == sep && FieldAtEnd(s[i + 1..], sep, r)
    ensures FieldAtEnd(s, sep, r)
  {
    var rest := s[i + 1..];
    assert s[|s| - |r|..] == rest[|rest| - |r|..];
    if |r| < |rest| {
      assert s[|s| - |r| - 1] == rest[|rest| - |r| - 1];
    } else {
      assert s[|s| - |r| - 1] == s[i];
    }
  }

  /** The last piece of the split is a suffix of `s` free of the separator:
      all of `s`, or the text that follows a separator. */
  lemma {:induction false} SplitLastIsSuffix(s: string, sep: char)
    ensures var parts := Split(s, sep); FieldAtEnd(s, sep, parts[|parts| - 1])
    decreases |s|
  {
    var parts := Split(s, sep);
    if sep !in s {
      assert parts == [s];
      assert s[|s| - |s|..] == s;
    } else {
      var i := FirstIndex(s, sep);
      var tail := Split(s[i + 1..], sep);
      assert parts == [s[..i]] + tail;
      assert parts[|parts| - 1] == tail[|tail| - 1];
      SplitLastIsSuffix(s[i + 1..], sep);
      FieldAtEndOfRest(s, i, sep, tail[|tail| - 1]);
    }
  }

  /** The text of `s` up to (not including) the first `c`, or all of `s`. */
  function TakeUntil(s: string, c: char): (r: string)
    ensures c !in r
    ensures StartsWith(s, r)
    ensures |r| < |s| ==> s[|r|] == c
  {
    if c in s then s[..FirstIndex(s, c)] else s
  }

  /** The piece after the first separator is the text between the first and
      the second separator (or the end). */
  lemma {:induction false} SplitSecond(s: string, sep: char)
    requires sep in s
    ensures |Split(s, sep)| >= 2
    ensures Split(s, sep)[1] == TakeUntil(s[FirstIndex(s, sep) + 1..], sep)
  {
    var i := FirstIndex(s, sep);
    var t := s[i + 1..];
    if sep in t {
      var j := FirstIndex(t, sep);
      assert Split(t, sep)[0] == t[..j];
    } else {
      assert Split(t, sep) == [t];
    }
  }

  /** A prefix whose only separator is its last character fixes where the
      first separator of the whole string is. */
  lemma FirstIndexAfterPrefix(p: string, t: string, sep: char)
    requires |p| >= 1 && p[|p| - 1] == sep && sep !in p[..|p| - 1]
    ensures sep in p + t && FirstIndex(p + t, sep) == |p| - 1
    ensures (p + t)[FirstIndex(p + t, sep) + 1..] == t
  {
    var s := p + t;
    assert s[|p| - 1] == sep;
    assert s[..|p| - 1] == p[..|p| - 1];
    assert s[|p|..] == t;
  }

  /** `"".join(parts)`: the pieces laid end to end. */
  function Concat(parts: seq<string>): string
  {
    if |parts| == 0 then "" else parts[0] + Concat(parts[1..])
  }

  /** Where piece `k` begins in `Concat(parts)`. */
  function Offset(parts: seq<string>, k: nat): nat
    requires k <= |parts|
  {
    if k == 0 then 0 else |parts[0]| + Offset(parts[1..], k - 1)
  }

  /** Every piece appears, unchanged and in order, at its offset. */
  lemma {:induction false} ConcatPiece(parts: seq<string>, k: nat)
    requires k < |parts|
    ensures Offset(parts, k) + |parts[k]| <= |Concat(parts)|
    ensures Concat(parts)[Offset(parts, k)..Offset(parts, k) + |parts[k]|] == parts[k]
    decreases k
  {
    if k > 0 {
      ConcatPiece(parts[1..], k - 1);
      var rest := Concat(parts[1..]);
      var o := Offset(parts[1..], k - 1);
      assert Concat(parts) == parts[0] + rest;
      assert Concat(parts)[|parts[0]| + o..|parts[0]| + o + |parts[k]|] == rest[o..o + |parts[k]|];
    }
  }

  /** The joined text is exactly as long as all pieces together. */
  lemma {:induction false} ConcatLength(parts: seq<string>)
    ensures |Concat(parts)| == Offset(parts, |parts|)
    decreases |parts|
  {
    if |parts| > 0 {
      ConcatLength(parts[1..]);
    }
  }

  /** `s` is the pieces laid end to end: as long as all of them together,
      with each piece, unchanged and in order, at its offset. */
  predicate LaidOut(s: string, parts: seq<string>)
  {
    && |s| == Offset(parts, |parts|)
    && forall k :: 0 <= k < |parts| ==>
         Offset(parts, k) + |parts[k]| <= |s| && s[Offset(parts, k)..Offset(parts, k) + |parts[k]|] == parts[k]
  }

  /** `"".join(parts)` adds nothing between or around the pieces. */
  lemma ConcatLaysOut(parts: seq<string>)
    ensures LaidOut(Concat(parts), parts)
  {
    ConcatLength(parts);
    forall k | 0 <= k < |parts|
      ensures Offset(parts, k) + |parts[k]| <= |Concat(parts)|
      ensures Concat(parts)[Offset(parts, k)..Offset(parts, k) + |parts[k]|] == parts[k]
    {
      ConcatPiece(parts, k);
    }
  }
}

=== FILE: Transcribe.dfy ===
/** `src/transcribe.py`: the resolver that turns an audio reference (data URI,
    URL or local path) into a named in-memory file with a MIME type, and the
    dispatcher that sends it either to the local model or to the remote
    transcription endpoint. */
module Transcribe {
  import opened Common
  import opened Strings
  import opened UrlParse
  import opened PathNames
  import opened DataUri
  import opened ModelCache
  import opened AudioStreams

  /** The three kinds of audio reference. */
  datatype RefKind = DataRef | UrlRef | PathRef

  /** `_get_file_handle`'s order of tests: the `data:` prefix first, then a
      scheme together with a network location, else a local path. */
  function Classify(ref: string): (k: RefKind)
    ensures k == DataRef <==> StartsWith(ref, "data:")
    ensures k == UrlRef <==> !StartsWith(ref, "data:") && IsUrl(ref)
    ensures k == PathRef <==> !StartsWith(ref, "data:") && !IsUrl(ref)
  {
    if StartsWith(ref, "data:") then DataRef
    else if IsUrl(ref) then UrlRef
    else PathRef
  }

  /** A reference starting with `data:` is a data URI even when it also has
      the shape of a URL (`data://host/...`). */
  lemma DataPrefixBeforeUrl(host: string, path: string)
    requires |host| >= 1 && NoNetlocEnd(host)
    requires path == "" || IsNetlocEnd(path[0])
    ensures IsUrl("data" + "://" + host + path) && Classify("data" + "://" + host + path) == DataRef
  {
    var scheme := "data";
    assert IsAsciiAlpha(scheme[0]) && AllSchemeChars(scheme);
    UrlOfParts(scheme, host, path);
    var ref := scheme + "://" + host + path;
    assert ref[..5] == "data:";
  }

  /** Any reference of the form scheme://host/path that does not start with
      `data:` is fetched as a URL. */
  lemma UrlOfPartsIsFetched(scheme: string, host: string, path: string)
    requires |scheme| >= 1 && IsAsciiAlpha(scheme[0]) && AllSchemeChars(scheme)
    requires |host| >= 1 && NoNetlocEnd(host)
    requires path == "" || IsNetlocEnd(path[0])
    requires !StartsWith(scheme + "://" + host + path, "data:")
    ensures Classify(scheme + "://" + host + path) == UrlRef
  {
    UrlOfParts(scheme, host, path);
  }

  /** A reference without a colon, such as a bare file name, is a local path. */
  lemma NoColonIsPath(ref: string)
    requires ':' !in ref
    ensures Classify(ref) == PathRef
  {
    NoColonNoUrl(ref);
    if |ref| >= 5 {
      assert ref[4] in ref;
      assert ref[..5][4] == ref[4];
    }
  }

  /** `_handle_url`: a GET that must answer 200; the file is named after the
      last path segment of the URL and the MIME type is the Content-Type
      header as sent (None when absent). */
  function FetchUrl(env: Env, url: string): (r: Result<Resolved>)
    ensures url !in env.web ==> r == Err(NetworkError(url))
    ensures url in env.web && env.web[url].status != 200 ==> r == Err(FetchFailed(url))
    ensures r.Ok? ==> r.value.content == env.web[url].body && r.value.mime == env.web[url].contentType
    ensures r.Ok? ==> '/' !in r.value.name && EndsWith(url, r.value.name)
  {
    if url !in env.web then Err(NetworkError(url))
    else
      var reply := env.web[url];
      if reply.status != 200 then Err(FetchFailed(url))
      else Ok(Resolved(Basename(url), reply.body, reply.contentType))
  }

  predicate EndsWith(s: string, suffix: string)
  {
    |suffix| <= |s| && s[|s| - |suffix|..] == suffix
  }

  /** A fetched file is named after the text after the URL's last `/`. */
  lemma FetchedNameIsLastSegment(env: Env, url: string, dir: string, file: string)
    requires url == dir + "/" + file && '/' !in file
    requires url in env.web && env.web[url].status == 200
    ensures FetchUrl(env, url).Ok? && FetchUrl(env, url).value.name == file
  {
    assert url == dir + ['/'] + file;
    AfterLastOf(dir, '/', file);
  }

  /** Extensions the local-file branch accepts, with the MIME value it looks up. */
  const ExtToMime: map<string, string> :=
    map["wav" := "audio/x-wav", "mp3" := "audio/mpeg", "m4a" := "audio/mp4", "ogg" := "audio/ogg", "webm" := "audio/webm"]

  /** `_handle_local_file`: the whole file, named by its base name; the
      extension is the text after the last dot (case kept) and must be listed.
      The MIME type puts `audio/` in front of the looked-up value, which already
      starts with `audio/`. */
  function HandleLocalFile(env: Env, path: string): (r: Result<Resolved>)
    ensures path !in env.files ==> r == Err(FileNotFound(path))
    ensures r.Ok? ==> r.value.content == env.files[path] && r.value.name == Basename(path)
    ensures r.Ok? ==> LastDotField(Basename(path)) in ExtToMime && r.value.mime.Some?
    ensures r.Err? && path in env.files ==>
      LastDotField(Basename(path)) !in ExtToMime && r.error == UnsupportedFileType(LastDotField(Basename(path)))
    ensures path in env.files && LastDotField(Basename(path)) in ExtToMime ==>
      r == Ok(Resolved(Basename(path), env.files[path], Some("audio/" + ExtToMime[LastDotField(Basename(path))])))
  {
    if path !in env.files then Err(FileNotFound(path))
    else
      var name := Basename(path);
      var ext := LastDotField(name);
      if ext !in ExtToMime then Err(UnsupportedFileType(ext))
      else Ok(Resolved(name, env.files[path], Some("audio/" + ExtToMime[ext])))
  }

  /** A file "<stem>.<ext>", bare or below a directory (no `/` in the name,
      no dot in the extension), is accepted exactly when the extension is
      listed, and then it carries its contents, its base name and `audio/` +
      the table value. */
  lemma LocalFileByExtension(env: Env, dir: string, stem: string, ext: string, path: string)
    requires '/' !in stem && '/' !in ext && '.' !in ext
    requires var name := stem + "." + ext; path == name || path == dir + "/" + name
    requires path in env.files
    ensures HandleLocalFile(env, path) ==
      if ext in ExtToMime then Ok(Resolved(stem + "." + ext, env.files[path], Some("audio/" + ExtToMime[ext])))
      else Err(UnsupportedFileType(ext))
  {
    var name := stem + "." + ext;
    assert name == stem + ['.'] + ext;
    BasenameOfName(dir, name, path);
    AfterLastOf(stem, '.', ext);
  }

  /** The table entry for `wav` already starts with `audio/`; `WAV` has none. */
  lemma WavEntries()
    ensures "wav" in ExtToMime && "audio/" + ExtToMime["wav"] == "audio/audio/x-wav"
    ensures "WAV" !in ExtToMime
  {
    assert "WAV"[0] != "wav"[0];
  }

  /** A `.wav` file gets the MIME type with `audio/` written twice. */
  lemma WavMimeDoubled(env: Env, path: string)
    requires path in env.files && LastDotField(Basename(path)) == "wav"
    ensures HandleLocalFile(env, path) == Ok(Resolved(Basename(path), env.files[path], Some("audio/audio/x-wav")))
  {
    WavEntries();
  }

  /** The extension test is case-sensitive: `.WAV` is refused. */
  lemma UpperCaseExtensionRefused(env: Env, path: string)
    requires path in env.files && LastDotField(Basename(path)) == "WAV"
    ensures HandleLocalFile(env, path) == Err(UnsupportedFileType("WAV"))
  {
    WavEntries();
  }

  /** `clip.wav` in the working directory is such a file. */
  lemma ClipWavExtension()
    ensures Basename("clip.wav") == "clip.wav" && LastDotField("clip.wav") == "wav"
  {
    assert "clip.wav" == "clip" + ['.'] + "wav";
    AfterLastOf("clip", '.', "wav");
  }

  /** `_get_file_handle`: the resolver for each kind of reference. */
  function Resolve(env: Env, ref: string): (r: Result<Resolved>)
    ensures r.Ok? ==> r.value.mime.Some? || Classify(ref) == UrlRef
  {
    match Classify(ref)
    case DataRef => Handle(ref)
    case UrlRef => FetchUrl(env, ref)
    case PathRef => HandleLocalFile(env, ref)
  }

  /** The decoded response of the endpoint: on 200 the `text` field verbatim;
      otherwise the `error.message` (printed as "None" when the object has no
      message). A missing field is a malformed response. */
  function ReadResponse(res: ApiResponse): (r: Result<string>)
    ensures r.Ok? <==> res.status == 200 && res.text.Some?
    ensures r.Ok? ==> r.value == res.text.value
    ensures res.status != 200 && res.error.ErrorObject? && res.error.message.Some? ==>
      r == Err(TranscriptionFailed(res.error.message.value))
  {
    if res.status != 200 then
      match res.error
      case NoErrorObject => Err(MalformedResponse)
      case ErrorObject(message) =>
        Err(TranscriptionFailed(if message.Some? then message.value else "None"))
    else if res.text.None? then Err(MalformedResponse)
    else Ok(res.text.value)
  }

  /** `_transcribe`: an empty key and an oversized payload are refused before
      any request; otherwise exactly one POST carries the key, the file triple,
      the fixed model name and the language. */
  function RemoteTranscribe(file: Resolved, key: string, lang: string, post: PostRequest -> ApiResponse): (run: Run)
    ensures key == "" ==> run == Run(Err(MissingApiKey), [])
    ensures key != "" && |file.content| > MaxUploadBytes ==> run == Run(Err(FileTooLarge), [])
    ensures key != "" && |file.content| <= MaxUploadBytes ==>
      run.sent == [PostRequest(key, file.name, file.content, file.mime, RemoteModel, lang)] &&
      run.result == ReadResponse(post(run.sent[0]))
  {
    if key == "" then Run(Err(MissingApiKey), [])
    else if |file.content| > MaxUploadBytes then Run(Err(FileTooLarge), [])
    else
      var req := PostRequest(key, file.name, file.content, file.mime, RemoteModel, lang);
      Run(ReadResponse(post(req)), [req])
  }

  /** The size limit is inclusive: 25,000,000 octets are sent, one more is
      refused without a request. */
  lemma SizeLimitBoundary(name: string, atLimit: seq<byte>, overLimit: seq<byte>, mime: Option<string>,
                          key: string, lang: string, post: PostRequest -> ApiResponse)
    requires key != ""
    requires |atLimit| == 25000000 && |overLimit| == 25000001
    ensures |RemoteTranscribe(Resolved(name, atLimit, mime), key, lang, post).sent| == 1
    ensures RemoteTranscribe(Resolved(name, overLimit, mime), key, lang, post) == Run(Err(FileTooLarge), [])
  {
  }

  /** What a dispatch produces: the run and the model cache after it. */
  datatype Outcome = Outcome(run: Run, cache: CacheState)

  /** `process_audio_file` once the reference is resolved: local mode joins
      the model's segments with no separator; remote mode needs a key before
      `_transcribe` is reached. */
  function Dispatch(file: Resolved, cfg: Config, st: CacheState,
                    post: PostRequest -> ApiResponse,
                    infer: (ModelInstance, seq<byte>, string) -> seq<string>,
                    downloadOk: bool, loadOk: bool): (o: Outcome)
    ensures |o.run.sent| <= 1
    ensures !cfg.useLocalModel ==> o.cache == st
    ensures cfg.useLocalModel ==> o.run.sent == []
  {
    if cfg.useLocalModel then
      var a := Acquire(st, GetModelId(cfg), cfg.device, cfg.computeType, downloadOk, loadOk);
      match a.result
      case Err(e) => Outcome(Run(Err(e), []), a.state)
      case Ok(w) => Outcome(Run(Ok(Concat(infer(w, file.content, cfg.language))), []), a.state)
    else if cfg.apiKey == "" then Outcome(Run(Err(MissingApiKey), []), st)
    else Outcome(RemoteTranscribe(file, cfg.apiKey, cfg.language, post), st)
  }

  /** `process_audio_file` as a function of the world, the settings, the model
      cache, the endpoint, the local model's segment output (`infer`) and the
      outcomes of the download and the model construction: resolution comes
      first and its error ends the call. */
  function Process(env: Env, ref: string, cfg: Config, st: CacheState,
                   post: PostRequest -> ApiResponse,
                   infer: (ModelInstance, seq<byte>, string) -> seq<string>,
                   downloadOk: bool, loadOk: bool): (o: Outcome)
    ensures |o.run.sent| <= 1
    ensures Resolve(env, ref).Err? ==> o == Outcome(Run(Err(Resolve(env, ref).error), []), st)
  {
    match Resolve(env, ref)
    case Err(e) => Outcome(Run(Err(e), []), st)
    case Ok(file) => Dispatch(file, cfg, st, post, infer, downloadOk, loadOk)
  }

  /** Remote mode with an empty key fails before any request is made. */
  lemma MissingKeyNoRequest(file: Resolved, cfg: Config, st: CacheState,
                            post: PostRequest -> ApiResponse,
                            infer: (ModelInstance, seq<byte>, string) -> seq<string>,
                            downloadOk: bool, loadOk: bool)
    requires !cfg.useLocalModel && cfg.apiKey == ""
    ensures Dispatch(file, cfg, st, post, infer, downloadOk, loadOk) == Outcome(Run(Err(MissingApiKey), []), st)
  {
  }

  /** Local mode returns the segments laid end to end: each segment text sits
      unchanged, in order, at its offset, and nothing else is added. */
  lemma LocalJoinsSegments(file: Resolved, cfg: Config, st: CacheState,
                           post: PostRequest -> ApiResponse,
                           infer: (ModelInstance, seq<byte>, string) -> seq<string>,
                           downloadOk: bool, loadOk: bool, w: ModelInstance)
    requires cfg.useLocalModel
    requires Acquire(st, GetModelId(cfg), cfg.device, cfg.computeType, downloadOk, loadOk).result == Ok(w)
    ensures var o := Dispatch(file, cfg, st, post, infer, downloadOk, loadOk);
      o.run.result.Ok? && LaidOut(o.run.result.value, infer(w, file.content, cfg.language))
  {
    ConcatLaysOut(infer(w, file.content, cfg.language));
  }

  /** A remote dispatch with a key and an allowed size returns the endpoint's
      text verbatim on 200, and its error message otherwise. */
  lemma RemoteReturnsText(file: Resolved, cfg: Config, st: CacheState,
                          post: PostRequest -> ApiResponse,
                          infer: (ModelInstance, seq<byte>, string) -> seq<string>,
                          downloadOk: bool, loadOk: bool)
    requires !cfg.useLocalModel && cfg.apiKey != "" && |file.content| <= MaxUploadBytes
    ensures var res := post(PostRequest(cfg.apiKey, file.name, file.content, file.mime, RemoteModel, cfg.language));
      var o := Dispatch(file, cfg, st, post, infer, downloadOk, loadOk);
      (res.status == 200 && res.text.Some? ==> o.run.result == Ok(res.text.value)) &&
      (res.status != 200 && res.error.ErrorObject? && res.error.message.Some? ==>
         o.run.result == Err(TranscriptionFailed(res.error.message.value)))
  {
  }

  /** Online settings with key "sk-x" and language "en", a 1000-octet
      `clip.wav`, and an endpoint answering `{"text": "hello world"}`. */
  lemma ClipWavHelloWorld(env: Env, st: CacheState,
                          infer: (ModelInstance, seq<byte>, string) -> seq<string>,
                          downloadOk: bool, loadOk: bool)
    requires "clip.wav" in env.files && |env.files["clip.wav"]| == 1000
    ensures var cfg := Config(false, "sk-x", "en", "base", "", "auto", "float32");
      var post := (req: PostRequest) => ApiResponse(200, Some("hello world"), NoErrorObject);
      Process(env, "clip.wav", cfg, st, post, infer, downloadOk, loadOk).run.result == Ok("hello world")
  {
    NoColonIsPath("clip.wav");
    ClipWavExtension();
    WavMimeDoubled(env, "clip.wav");
    var file := Resolved("clip.wav", env.files["clip.wav"], Some("audio/audio/x-wav"));
    assert Resolve(env, "clip.wav") == Ok(file);
  }

  /** A data URI with the unlisted subtype `flac` fails as unsupported. */
  lemma FlacDataUriUnsupported(env: Env, cfg: Config, st: CacheState,
                               post: PostRequest -> ApiResponse,
                               infer: (ModelInstance, seq<byte>, string) -> seq<string>,
                               downloadOk: bool, loadOk: bool)
    ensures Process(env, "data:audio/flac;base64,AAAA", cfg, st, post, infer, downloadOk, loadOk).run.result ==
      Err(UnsupportedMimeType("flac"))
  {
    FlacUnsupported();
    assert StartsWith("data:audio/flac;base64,AAAA", "data:");
  }

  /** Offline settings (tiny, cpu, int8) on a fresh cache, a model that
      downloads and loads, and segments "foo " and "bar" give "foo bar". */
  lemma LocalFooBar(file: Resolved, post: PostRequest -> ApiResponse,
                    infer: (ModelInstance, seq<byte>, string) -> seq<string>)
    requires infer(ModelInstance(1, "tiny", "cpu", "int8"), file.content, "en") == ["foo ", "bar"]
    ensures var cfg := Config(true, "", "en", "tiny", "", "cpu", "int8");
      var o := Dispatch(file, cfg, Initial({}), post, infer, true, true);
      o.run.result == Ok("foo bar") && o.cache.currentModel == Some("tiny") && o.cache.loads == 1
  {
    var cfg := Config(true, "", "en", "tiny", "", "cpu", "int8");
    var w := ModelInstance(1, "tiny", "cpu", "int8");
    var a := Acquire(Initial({}), "tiny", "cpu", "int8", true, true);
    assert GetModelId(cfg) == "tiny";
    assert a.result == Ok(w) && a.state.currentModel == Some("tiny") && a.state.loads == 1;
    var segments := infer(w, file.content, "en");
    assert Concat(segments) == "foo bar" by {
      assert segments[1..] == ["bar"];
      assert Concat(segments[1..]) == "bar" + Concat([]);
    }
  }

  /** The dispatcher with its stream: the resolved audio becomes a named
      in-memory file, which is then transcribed (see DispatchStream). */
  method ProcessAudioFile(env: Env, ref: string, cfg: Config, cache: LocalWhisper,
                          post: PostRequest -> ApiResponse,
                          infer: (ModelInstance, seq<byte>, string) -> seq<string>,
                          downloadOk: bool, loadOk: bool)
    returns (run: Run, file: AudioStream?)
    requires cache.IsValid()
    modifies cache
    ensures cache.IsValid()
    ensures Outcome(run, cache.State()) == Process(env, ref, cfg, old(cache.State()), post, infer, downloadOk, loadOk)
    ensures file == null <==> Resolve(env, ref).Err?
    ensures file != null ==> fresh(file) && (file.closed <==> run.result.Ok?)
  {
    var resolved := Resolve(env, ref);
    if resolved.Err? {
      return Run(Err(resolved.error), []), null;
    }
    var res := resolved.value;
    ghost var before := cache.State();
    assert Process(env, ref, cfg, before, post, infer, downloadOk, loadOk) ==
      Dispatch(res, cfg, before, post, infer, downloadOk, loadOk);
    file := new AudioStream(res.content);
    file.SetName(res.name);
    run := DispatchStream(file, res, cfg, cache, post, infer, downloadOk, loadOk);
  }

  /** The part of `process_audio_file` after resolution, on the open file:
      remote mode reads it whole for the request; the file is closed only when
      the transcription succeeds (an error leaves it open). */
  method DispatchStream(file: AudioStream, res: Resolved, cfg: Config, cache: LocalWhisper,
                        post: PostRequest -> ApiResponse,
                        infer: (ModelInstance, seq<byte>, string) -> seq<string>,
                        downloadOk: bool, loadOk: bool)
    returns (run: Run)
    requires file.data == res.content && file.name == res.name && file.pos == 0 && !file.closed
    requires cache.IsValid()
    modifies file`pos, file`closed, cache
    ensures cache.IsValid()
    ensures Outcome(run, cache.State()) == Dispatch(res, cfg, old(cache.State()), post, infer, downloadOk, loadOk)
    ensures file.closed <==> run.result.Ok?
    ensures file.data == res.content && file.name == res.name
  {
    if cfg.useLocalModel {
      var whisper := cache.GetInstance(cfg, downloadOk, loadOk);
      if whisper.Err? {
        return Run(Err(whisper.error), []);
      }
      run := Run(Ok(Concat(infer(whisper.value, file.data, cfg.language))), []);
    } else {
      if cfg.apiKey == "" {
        return Run(Err(MissingApiKey), []);
      }
      var content := file.Read();
      assert Resolved(file.name, content, res.mime) == res;
      run := RemoteTranscribe(Resolved(file.name, content, res.mime), cfg.apiKey, cfg.language, post);
      if run.result.Err? {
        return;
      }
    }
    file.Close();
  }
}

=== FILE: Transcript.dfy ===
/** `src/transcript.py`: the older resolver and remote-only dispatcher. It
    tells references apart in the same order as `src/transcribe.py` and
    handles data URIs and URLs alike, but it names a local file's MIME type
    after whatever extension the file has, checks neither the reply's status
    nor the key, never closes the file, and keeps a falsy-result test that
    no resolver outcome can reach. */
module Transcript {
  import opened Common
  import opened PathNames
  import opened DataUri
  import opened AudioStreams
  import Strings
  import Transcribe

  /** `_handle_local_file`: the file named by its base name, with the MIME
      type `audio/` followed by the `splitext` extension without its dot. No
      extension is refused. */
  function HandleLocalFile(env: Env, path: string): (r: Result<Resolved>)
    ensures path !in env.files <==> r.Err?
    ensures r.Err? ==> r.error == FileNotFound(path)
    ensures r.Ok? ==> r.value.content == env.files[path] && r.value.name == Basename(path)
    ensures r.Ok? ==> r.value.mime.Some? && Strings.StartsWith(r.value.mime.value, "audio/")
  {
    if path !in env.files then Err(FileNotFound(path))
    else
      var name := Basename(path);
      var mime := "audio/" + SplitExtSuffix(name);
      assert mime[..6] == "audio/";
      Ok(Resolved(name, env.files[path], Some(mime)))
  }

  /** The local branch's result, once the base name is known. */
  lemma LocalResolvedAs(env: Env, path: string, name: string)
    requires path in env.files && Basename(path) == name
    ensures HandleLocalFile(env, path) == Ok(Resolved(name, env.files[path], Some("audio/" + SplitExtSuffix(name))))
  {
  }

  /** An empty extension leaves the bare `audio/`. */
  lemma BareAudioMime(ext: string)
    requires ext == ""
    ensures "audio/" + ext == "audio/"
  {
  }

  /** A file "<stem>.<ext>", bare or below a directory, gets `audio/<ext>`,
      listed extension or not. */
  lemma LocalMimeIsExtension(env: Env, dir: string, stem: string, ext: string, path: string)
    requires '/' !in stem && '/' !in ext && '.' !in ext && !AllDots(stem)
    requires var name := stem + "." + ext; path == name || path == dir + "/" + name
    requires path in env.files
    ensures HandleLocalFile(env, path) == Ok(Resolved(stem + "." + ext, env.files[path], Some("audio/" + ext)))
  {
    var name := stem + "." + ext;
    assert '/' !in name by {
      assert name == stem + ['.'] + ext;
    }
    BasenameOfName(dir, name, path);
    SplitExtOfStem(stem, ext);
  }

  /** A name with no dot, bare or below a directory, gets the bare `audio/`. */
  lemma LocalMimeWithoutDot(env: Env, dir: string, name: string, path: string)
    requires '/' !in name && '.' !in name
    requires path == name || path == dir + "/" + name
    requires path in env.files
    ensures HandleLocalFile(env, path) == Ok(Resolved(name, env.files[path], Some("audio/")))
  {
    assert Basename(path) == name by {
      BasenameOfName(dir, name, path);
    }
    LocalResolvedAs(env, path, name);
    SplitExtNoDot(name);
    BareAudioMime(SplitExtSuffix(name));
  }

  /** A dot file such as `.wav` (only dots before the last one), bare or
      below a directory, gets the bare `audio/` too. */
  lemma LocalMimeOfDotFile(env: Env, dir: string, dots: string, ext: string, path: string)
    requires '/' !in dots && '/' !in ext && '.' !in ext && AllDots(dots)
    requires var dotted := dots + "." + ext; path == dotted || path == dir + "/" + dotted
    requires path in env.files
    ensures HandleLocalFile(env, path) == Ok(Resolved(dots + "." + ext, env.files[path], Some("audio/")))
  {
    var dotted := dots + "." + ext;
    assert '/' !in dotted by {
      assert dotted == dots + ['.'] + ext;
    }
    assert Basename(path) == dotted by {
      BasenameOfName(dir, dotted, path);
    }
    LocalResolvedAs(env, path, dotted);
    SplitExtEmpty(dots, ext);
    BareAudioMime(SplitExtSuffix(dotted));
  }

  /** `_get_file_handle`: the same order of tests as the newer resolver, with
      its own local-file branch. */
  function Resolve(env: Env, ref: string): (r: Result<Resolved>)
    ensures r.Ok? ==> r.value.mime.Some? || Transcribe.Classify(ref) == Transcribe.UrlRef
    ensures r.Err? ==> r.error != UnsupportedOrInvalidPath
  {
    match Transcribe.Classify(ref)
    case DataRef => Handle(ref)
    case UrlRef => Transcribe.FetchUrl(env, ref)
    case PathRef => HandleLocalFile(env, ref)
  }

  /** Data URIs and URLs resolve exactly as in the newer resolver. */
  lemma AgreesExceptLocal(env: Env, ref: string)
    requires Transcribe.Classify(ref) != Transcribe.PathRef
    ensures Resolve(env, ref) == Transcribe.Resolve(env, ref)
  {
  }

  /** A local file with a listed extension resolves to the same contents and
      name in both versions; only the MIME type differs, `audio/<ext>` here
      against `audio/` + the table value in the newer resolver. */
  lemma LocalMimeDiffers(env: Env, dir: string, stem: string, ext: string, path: string)
    requires '/' !in stem && '/' !in ext && '.' !in ext && !AllDots(stem)
    requires ext in Transcribe.ExtToMime
    requires var name := stem + "." + ext; path == name || path == dir + "/" + name
    requires path in env.files
    ensures var newer := Transcribe.HandleLocalFile(env, path);
      var older := HandleLocalFile(env, path);
      newer.Ok? && older.Ok? && newer.value.name == older.value.name && newer.value.content == older.value.content &&
      older.value.mime == Some("audio/" + ext) && newer.value.mime == Some("audio/" + Transcribe.ExtToMime[ext])
  {
    LocalMimeIsExtension(env, dir, stem, ext, path);
    Transcribe.LocalFileByExtension(env, dir, stem, ext, path);
  }

  /** `transcript(key, lang, file)`: an oversized payload is refused before
      any request; otherwise one POST is made and the reply's `text` field is
      returned whatever the status, with no test of the key. */
  function TranscriptCall(key: string, lang: string, file: Resolved, post: PostRequest -> ApiResponse): (run: Run)
    ensures |file.content| > MaxUploadBytes <==> run.sent == []
    ensures |file.content| > MaxUploadBytes ==> run.result == Err(FileTooLarge)
    ensures |file.content| <= MaxUploadBytes ==>
      run.sent == [PostRequest(key, file.name, file.content, file.mime, RemoteModel, lang)] &&
      (run.result.Ok? <==> post(run.sent[0]).text.Some?) &&
      (run.result.Ok? ==> run.result.value == post(run.sent[0]).text.value) &&
      (run.result.Err? ==> run.result.error == MalformedResponse)
  {
    if |file.content| > MaxUploadBytes then Run(Err(FileTooLarge), [])
    else
      var req := PostRequest(key, file.name, file.content, file.mime, RemoteModel, lang);
      var res := post(req);
      Run(if res.text.Some? then Ok(res.text.value) else Err(MalformedResponse), [req])
  }

  /** With a key and a 200 reply, the older call behaves exactly as the newer
      `_transcribe`. */
  lemma AgreesOnSuccess(key: string, lang: string, file: Resolved, post: PostRequest -> ApiResponse)
    requires key != ""
    requires post(PostRequest(key, file.name, file.content, file.mime, RemoteModel, lang)).status == 200
    ensures TranscriptCall(key, lang, file, post) == Transcribe.RemoteTranscribe(file, key, lang, post)
  {
  }

  /** A failing status with a `text` field still yields that text, where the
      newer call reports a failure. */
  lemma StatusIgnored(key: string, lang: string, file: Resolved, post: PostRequest -> ApiResponse)
    requires key != "" && |file.content| <= MaxUploadBytes
    requires var res := post(PostRequest(key, file.name, file.content, file.mime, RemoteModel, lang));
      res.status != 200 && res.text.Some?
    ensures var res := post(PostRequest(key, file.name, file.content, file.mime, RemoteModel, lang));
      TranscriptCall(key, lang, file, post).result == Ok(res.text.value) &&
      Transcribe.RemoteTranscribe(file, key, lang, post).result.Err?
  {
  }

  /** An empty key is sent as is: the request goes out with `Bearer ` and
      nothing after it. */
  lemma EmptyKeyStillPosts(lang: string, file: Resolved, post: PostRequest -> ApiResponse)
    requires |file.content| <= MaxUploadBytes
    ensures var run := TranscriptCall("", lang, file, post);
      |run.sent| == 1 && run.sent[0].apiKey == "" && run.result != Err(MissingApiKey)
  {
  }

  /** The size limit is inclusive here too. */
  lemma SizeLimitBoundary(name: string, atLimit: seq<byte>, overLimit: seq<byte>, mime: Option<string>,
                          key: string, lang: string, post: PostRequest -> ApiResponse)
    requires |atLimit| == 25000000 && |overLimit| == 25000001
    ensures |TranscriptCall(key, lang, Resolved(name, atLimit, mime), post).sent| == 1
    ensures TranscriptCall(key, lang, Resolved(name, overLimit, mime), post) == Run(Err(FileTooLarge), [])
  {
  }

  /** `process_audio_file`: resolution, then one call with the settings' key
      and language. A resolution error ends the call with no request. */
  function Process(env: Env, ref: string, cfg: Config, post: PostRequest -> ApiResponse): (run: Run)
    ensures |run.sent| <= 1
    ensures Resolve(env, ref).Err? ==> run == Run(Err(Resolve(env, ref).error), [])
    ensures Resolve(env, ref).Ok? ==> run == TranscriptCall(cfg.apiKey, cfg.language, Resolve(env, ref).value, post)
  {
    match Resolve(env, ref)
    case Err(e) => Run(Err(e), [])
    case Ok(file) => TranscriptCall(cfg.apiKey, cfg.language, file, post)
  }

  /** The "unsupported file type or invalid file path" error is never raised:
      every resolver either raises its own error or returns a pair, which is
      never falsy. */
  lemma NeverUnsupportedOrInvalidPath(env: Env, ref: string, cfg: Config, post: PostRequest -> ApiResponse)
    ensures Process(env, ref, cfg, post).result != Err(UnsupportedOrInvalidPath)
  {
  }

  /** `_get_file_handle` as written: the temporary file of `_handle_url` and
      the text-mode file of `_handle_local_file` are operating-system files
      whose `name` cannot be assigned, so once the fetch or the open succeeds
      the assignment raises. Only the in-memory file of a data URI can be
      named. `Resolve` is the behaviour the code evidently intends. */
  function ResolveAsWritten(env: Env, ref: string): (r: Result<Resolved>)
    ensures r.Ok? ==> Transcribe.Classify(ref) == Transcribe.DataRef && r == Resolve(env, ref)
    ensures Resolve(env, ref).Err? ==> r == Resolve(env, ref)
    ensures Resolve(env, ref).Ok? && Transcribe.Classify(ref) != Transcribe.DataRef ==> r == Err(NameNotWritable)
  {
    match Transcribe.Classify(ref)
    case DataRef => Handle(ref)
    case UrlRef =>
      (match Transcribe.FetchUrl(env, ref)
       case Err(e) => Err(e)
       case Ok(_) => Err(NameNotWritable))
    case PathRef => if ref !in env.files then Err(FileNotFound(ref)) else Err(NameNotWritable)
  }

  /** `process_audio_file` over the resolver as written. */
  function ProcessAsWritten(env: Env, ref: string, cfg: Config, post: PostRequest -> ApiResponse): (run: Run)
    ensures ResolveAsWritten(env, ref).Err? ==> run == Run(Err(ResolveAsWritten(env, ref).error), [])
    ensures ResolveAsWritten(env, ref).Ok? ==> run == Process(env, ref, cfg, post)
  {
    match ResolveAsWritten(env, ref)
    case Err(e) => Run(Err(e), [])
    case Ok(file) => TranscriptCall(cfg.apiKey, cfg.language, file, post)
  }

  /** As written, only a data URI ever reaches the transcription endpoint: a
      URL or a local file ends in an error with no request sent. */
  lemma OnlyDataUrisTranscribedAsWritten(env: Env, ref: string, cfg: Config, post: PostRequest -> ApiResponse)
    requires Transcribe.Classify(ref) != Transcribe.DataRef
    ensures ProcessAsWritten(env, ref, cfg, post).result.Err?
    ensures ProcessAsWritten(env, ref, cfg, post).sent == []
  {
  }

  /** As written, the older resolver still agrees with the newer one on data
      URIs, whose in-memory file can be named; a URL the newer resolver
      fetches ends in the naming error instead. */
  lemma DataUrisAgreeAsWritten(env: Env, ref: string)
    ensures Transcribe.Classify(ref) == Transcribe.DataRef ==> ResolveAsWritten(env, ref) == Transcribe.Resolve(env, ref)
    ensures Transcribe.Classify(ref) == Transcribe.UrlRef && Transcribe.Resolve(env, ref).Ok? ==>
      ResolveAsWritten(env, ref) == Err(NameNotWritable)
  {
    if Transcribe.Classify(ref) != Transcribe.PathRef {
      AgreesExceptLocal(env, ref);
    }
  }

  /** `clip.mp3` is its own base name. */
  lemma ClipMp3Basename()
    ensures Basename("clip.mp3") == "clip.mp3"
  {
    BasenameOfName("", "clip.mp3", "clip.mp3");
  }

  /** `clip.mp3` has the `splitext` extension `mp3`, so the MIME type
      `audio/mp3`. */
  lemma ClipMp3Extension()
    ensures SplitExtSuffix("clip.mp3") == "mp3" && "audio/" + SplitExtSuffix("clip.mp3") == "audio/mp3"
  {
    assert "clip"[0] != '.';
    SplitExtOfStem("clip", "mp3");
    assert "clip.mp3" == "clip" + "." + "mp3";
  }

  /** `clip.mp3` in the working directory: the intended resolver opens it as
      `audio/mp3`, the code as written raises on naming it. */
  lemma ClipMp3AsWritten(env: Env)
    requires "clip.mp3" in env.files
    ensures Resolve(env, "clip.mp3") == Ok(Resolved("clip.mp3", env.files["clip.mp3"], Some("audio/mp3")))
    ensures ResolveAsWritten(env, "clip.mp3") == Err(NameNotWritable)
  {
    Transcribe.NoColonIsPath("clip.mp3");
    ClipMp3Basename();
    ClipMp3Extension();
  }

  /** The open file a resolver hands back, with its MIME type. */
  datatype OpenFile = OpenFile(stream: AudioStream, mime: Option<string>)

  /** The resolver's file holds `r`'s contents at position 0, carries its name,
      is open, and is paired with its MIME type. */
  predicate Holds(f: OpenFile, r: Resolved)
    reads f.stream
  {
    f.stream.data == r.content && f.stream.pos == 0 && f.stream.name == r.name &&
    !f.stream.closed && f.mime == r.mime
  }

  /** `BytesIO(content)` named after the resolved file. */
  method OpenInMemory(res: Resolved) returns (f: OpenFile)
    ensures fresh(f.stream) && Holds(f, res)
  {
    var file := new AudioStream(res.content);
    file.SetName(res.name);
    f := OpenFile(file, res.mime);
  }

  /** `TemporaryFile('wb+')` filled with the resolved file's contents: the
      contents are written into the empty file, which is rewound and named. */
  method OpenTemporary(res: Resolved) returns (f: OpenFile)
    ensures fresh(f.stream) && Holds(f, res)
  {
    var file := new AudioStream([]);
    file.Write(res.content);
    WriteSeekReadBack(res.content);
    file.Seek(0);
    file.SetName(res.name);
    f := OpenFile(file, res.mime);
  }

  /** `_handle_url`: the fetch of `FetchUrl`, with the reply body held in a
      temporary file. */
  method HandleUrl(env: Env, url: string) returns (r: Result<OpenFile>)
    ensures r.Ok? <==> Transcribe.FetchUrl(env, url).Ok?
    ensures r.Err? ==> r.error == Transcribe.FetchUrl(env, url).error
    ensures r.Ok? ==> fresh(r.value.stream) && Holds(r.value, Transcribe.FetchUrl(env, url).value)
  {
    var fetched := Transcribe.FetchUrl(env, url);
    if fetched.Err? {
      return Err(fetched.error);
    }
    var f := OpenTemporary(fetched.value);
    r := Ok(f);
  }

  /** `_get_file_handle` with its files: a data URI or a local file becomes an
      in-memory stream (text mode aside); a URL goes through the temporary
      file. */
  method GetFileHandle(env: Env, ref: string) returns (r: Result<OpenFile>)
    ensures r.Ok? <==> Resolve(env, ref).Ok?
    ensures r.Err? ==> r.error == Resolve(env, ref).error
    ensures r.Ok? ==> fresh(r.value.stream) && Holds(r.value, Resolve(env, ref).value)
  {
    var kind := Transcribe.Classify(ref);
    if kind == Transcribe.UrlRef {
      r := HandleUrl(env, ref);
      return;
    }
    var resolved := if kind == Transcribe.DataRef then Handle(ref) else HandleLocalFile(env, ref);
    assert resolved == Resolve(env, ref);
    if resolved.Err? {
      return Err(resolved.error);
    }
    var f := OpenInMemory(resolved.value);
    r := Ok(f);
  }

  /** `process_audio_file` with its file: the whole stream is read into the
      request. The file is left open. */
  method ProcessAudioFile(env: Env, ref: string, cfg: Config, post: PostRequest -> ApiResponse)
    returns (run: Run)
    ensures run == Process(env, ref, cfg, post)
  {
    var info := GetFileHandle(env, ref);
    if info.Err? {
      return Run(Err(info.error), []);
    }
    var file := info.value.stream;
    var content := file.Read();
    run := TranscriptCall(cfg.apiKey, cfg.language, Resolved(file.name, content, info.value.mime), post);
  }
}

=== FILE: UrlParse.dfy ===
/** The part of `urllib.parse.urlparse` that decides whether an audio
    reference is a URL: the scheme and the network location. */
module UrlParse {
  import opened Strings

  predicate IsAsciiAlpha(c: char)
  {
    ('a' <= c <= 'z') || ('A' <= c <= 'Z')
  }

  /** Characters allowed in a scheme: letters, digits, `+`, `-` and `.`. */
  predicate IsSchemeChar(c: char)
  {
    IsAsciiAlpha(c) || ('0' <= c <= '9') || c == '+' || c == '-' || c == '.'
  }

  /** The text before the first `:` is a scheme: it is not empty, starts with
      a letter and holds only scheme characters. */
  predicate HasScheme(url: string)
  {
    && ':' in url
    && FirstIndex(url, ':') > 0
    && IsAsciiAlpha(url[0])
    && AllSchemeChars(url[..FirstIndex(url, ':')])
  }

  predicate AllSchemeChars(s: string)
  {
    forall k :: 0 <= k < |s| ==> IsSchemeChar(s[k])
  }

  function LowerAscii(s: string): (r: string)
    ensures |r| == |s|
  {
    seq(|s|, k requires 0 <= k < |s| => if 'A' <= s[k] <= 'Z' then (s[k] as int + 32) as char else s[k])
  }

  /** The scheme, lower-cased, or "" when the reference has none. */
  function Scheme(url: string): (s: string)
    ensures s != "" <==> HasScheme(url)
  {
    if HasScheme(url) then LowerAscii(url[..FirstIndex(url, ':')]) else ""
  }

  /** What follows the scheme and its colon (all of `url` without a scheme). */
  function AfterScheme(url: string): string
  {
    if HasScheme(url) then url[FirstIndex(url, ':') + 1..] else url
  }

  predicate IsNetlocEnd(c: char)
  {
    c == '/' || c == '?' || c == '#'
  }

  /** No character of `s` ends a network location. */
  predicate NoNetlocEnd(s: string)
  {
    forall k :: 0 <= k < |s| ==> !IsNetlocEnd(s[k])
  }

  /** The text up to the first `/`, `?` or `#`. */
  function TakeNetloc(s: string): (r: string)
    ensures StartsWith(s, r)
    ensures NoNetlocEnd(r)
    ensures |r| < |s| ==> IsNetlocEnd(s[|r|])
    decreases |s|
  {
    if |s| == 0 || IsNetlocEnd(s[0]) then "" else [s[0]] + TakeNetloc(s[1..])
  }

  /** The network location: present only when `//` follows the scheme. */
  function Netloc(url: string): string
  {
    var rest := AfterScheme(url);
    if StartsWith(rest, "//") then TakeNetloc(rest[2..]) else ""
  }

  /** `all([parsed.scheme, parsed.netloc])`: both parts are non-empty
      (by the contract of Scheme, a scheme is non-empty exactly when HasScheme). */
  predicate IsUrl(url: string)
  {
    HasScheme(url) && Netloc(url) != ""
  }

  lemma UrlHasSchemeAndSlashes(url: string)
    requires IsUrl(url)
    ensures HasScheme(url) && StartsWith(AfterScheme(url), "//")
    ensures Netloc(url) == TakeNetloc(url[FirstIndex(url, ':') + 3..])
  {
    var i := FirstIndex(url, ':');
    assert url[i + 1..][2..] == url[i + 3..];
  }

  /** Every URL is a scheme, then `://` and its host (which ends at the first
      `/`, `?` or `#`), then the rest. */
  lemma UrlShape(url: string)
    requires IsUrl(url)
    ensures StartsWith(url[FirstIndex(url, ':')..], "://" + Netloc(url))
  {
    ColonSlashSlash(url);
    var i := FirstIndex(url, ':');
    var tail := url[i + 3..];
    var host := TakeNetloc(tail);
    assert url[i..][..3 + |host|] == url[i..i + 3] + tail[..|host|];
  }

  lemma ColonSlashSlash(url: string)
    requires IsUrl(url)
    ensures FirstIndex(url, ':') + 3 <= |url| && url[FirstIndex(url, ':')..FirstIndex(url, ':') + 3] == "://"
    ensures Netloc(url) == TakeNetloc(url[FirstIndex(url, ':') + 3..])
  {
    UrlHasSchemeAndSlashes(url);
    var i := FirstIndex(url, ':');
    assert url[i + 1..][..2] == "//";
  }

  /** A valid scheme and its colon in front of `t` are parsed off as the scheme. */
  lemma SchemeOf(scheme: string, t: string)
    requires |scheme| >= 1 && IsAsciiAlpha(scheme[0]) && AllSchemeChars(scheme)
    ensures HasScheme(scheme + [':'] + t)
    ensures AfterScheme(scheme + [':'] + t) == t
  {
    var p := scheme + [':'];
    assert ':' !in scheme by {
      forall k | 0 <= k < |scheme| ensures scheme[k] != ':' {
        assert IsSchemeChar(scheme[k]);
      }
    }
    assert p[..|p| - 1] == scheme;
    FirstIndexAfterPrefix(p, t, ':');
    assert (p + t)[..|scheme|] == scheme;
  }

  /** After a scheme, the network location is what `//` introduces. */
  lemma NetlocAfterScheme(scheme: string, t: string)
    requires |scheme| >= 1 && IsAsciiAlpha(scheme[0]) && AllSchemeChars(scheme)
    requires StartsWith(t, "//")
    ensures HasScheme(scheme + [':'] + t)
    ensures Netloc(scheme + [':'] + t) == TakeNetloc(t[2..])
  {
    SchemeOf(scheme, t);
  }

  /** Conversely, scheme + "://" + host + path is a URL with that host. */
  lemma UrlOfParts(scheme: string, host: string, path: string)
    requires |scheme| >= 1 && IsAsciiAlpha(scheme[0]) && AllSchemeChars(scheme)
    requires |host| >= 1 && NoNetlocEnd(host)
    requires path == "" || IsNetlocEnd(path[0])
    ensures IsUrl(scheme + "://" + host + path)
    ensures Netloc(scheme + "://" + host + path) == host
  {
    var t := "//" + host + path;
    assert scheme + "://" + host + path == scheme + [':'] + t;
    assert StartsWith(t, "//") && t[2..] == host + path by {
      assert t[..2] == "//";
    }
    NetlocAfterScheme(scheme, t);
    TakeNetlocOf(host, path);
  }

  lemma {:induction false} TakeNetlocOf(host: string, path: string)
    requires NoNetlocEnd(host)
    requires path == "" || IsNetlocEnd(path[0])
    ensures TakeNetloc(host + path) == host
    decreases |host|
  {
    if |host| > 0 {
      assert (host + path)[1..] == host[1..] + path;
      TakeNetlocOf(host[1..], path);
    } else {
      assert host + path == path;
    }
  }

  /** A reference without a colon has no scheme, so it is never a URL:
      a bare file name such as "clip.wav" is a local path. */
  lemma NoColonNoUrl(url: string)
    requires ':' !in url
    ensures !IsUrl(url)
  {
  }
}
